=== FILE: README.md ===
# Status-page backend: a Dafny model of its business rules

The backend keeps organisations, their services, the incidents filed against
those services and the collaboration requests users send to organisations.
Its four Express controllers (services, incidents, collaborators,
organisations) each check who the caller is, validate the request, and then
make a few record updates. This project models those rules in Dafny.

- `records.dfy` (module `Records`) holds the five record kinds. The status
  values have the schemas' spellings. It also holds the `Database` value that
  holds them all, the access predicates, and the `Step` a handler produces:
  the database afterwards and the answer. Identifiers come from a counter, so
  a smaller identifier is an older record. This is how the model reads
  "sorted by creation time".
- `selection.dfy` (module `Selection`) models a filtered `find`: the matching
  records, oldest first or newest first, and how many there are.
- `snapshot.dfy` (module `Snapshot`) is the per-organisation snapshot that every
  mutating service and incident handler broadcasts, and that `getServicesByOrgId`
  returns: each service of the organisation
  with its open incidents. The source defines it twice, identically.
- `services.dfy`, `incidents.dfy`, `collaboration.dfy`, `organizations.dfy`
  (modules `ServiceRules`, `IncidentRules`, `CollabRules`, `OrgRules`) give
  one function per handler, from the database before to the `Step` after.
  Each contract states every error case in the handler's order. It states
  that a failed call changes nothing. It states exactly what a successful
  call writes and what it leaves alone, and that the database stays `Valid`.
  The query handlers are functions with soundness and completeness contracts.
- `store.dfy` (module `StatusStore`) is the store as the handlers use it: a
  `Store` class whose fields are the five collections and the identifier
  counter. It has one method per mutating handler. Each method checks and
  then assigns fields in the handler's order. Each is proved to produce
  exactly the `Step` of the matching rule function. Each keeps `Valid()`,
  which includes the status rule below.
- `scenarios.dfy` (module `Scenarios`) holds call sequences: an outage set by
  hand and then cleared, and two incidents filed in a row.

Errors follow the HTTP answers:

| error | HTTP status |
|---|---|
| `NotFound` | 404 |
| `Forbidden` | 403 |
| `InvalidStatus`, `MissingField`, `DuplicateName`, `AlreadyAdmin`, `AlreadyCollaborator`, `RequestPending` | 400 |
| `ServerError` | 500 |

A handler answers 500 (`ServerError`) when it throws. The handlers throw on
a reference to a deleted record: `updateServiceStatus`, `createIncident` and
the incident handlers on a service whose organisation is gone or an incident
whose service is gone, `respondToRequest` on a request whose organisation is
gone, and `suspendCollaborator` on a `reqId` that names no request. They also
throw when a schema's `required` validator rejects an empty name or message.
`deleteService` is the exception: it checks for a missing organisation and
answers 403 (`Forbidden`) instead.

The status rule the handlers keep is `Records.NoOpenIncidentWhileOperational`:
an existing service with an open incident is never Operational. Every
mutating handler preserves it. The converse does not hold, as
`ServiceRules.OutageWithoutIncident` shows.

Behaviours of the code a reader might not expect:

- `createIncident` sets the service to Degraded Performance whatever its
  status was, even from Major Outage.
- `deleteService` does not delete the service's incidents.
- `DeleteOrganization` deletes neither services nor requests. Its services
  can then be neither deleted (403 for every caller) nor changed (500).
- `suspendCollaborator` also admits any caller whose role is Admin, and it
  resets whichever request `reqId` names.
- "Operational exactly when there is no open incident" holds in one
  direction only: an open incident keeps a service from being Operational,
  but a service may be down with no incident.
- A duplicate name is a 400, not a separate conflict kind.

## Model

| member | source | states |
|---|---|---|
| Records.ParseServiceStatus | server/controllers/service.controller.js:6-11 | a status is accepted exactly when it is one of the four listed spellings, and the parsed value prints back as the same spelling |
| Records.StatusNameParses | server/models/Services.model.js:13-18 | each of the four schema statuses parses back to itself |
| Records.ParseDecision | server/controllers/collaborator.controller.js:91-95 | an answer is accepted exactly when it is "Accepted" or "Rejected", and it is never Pending |
| Selection.Select | server/controllers/service.controller.js:15-21 | a filtered find returns exactly the matching records, each once, in increasing identifier (creation) order |
| Selection.SelectNewestFirst | server/controllers/incidents.controller.js:196-198 | the same records, in decreasing identifier order |
| Selection.CountWhere | server/controllers/organization.controller.js:104-106 | a count query returns the number of keys whose record passes the filter |
| Snapshot.OpenIncidentsOf | server/controllers/service.controller.js:18-27 | exactly the open incidents of the service, each once; empty exactly when it has no open incident |
| Snapshot.ServicesWithIncidents | server/controllers/service.controller.js:14-29 | one view per service of the organisation, oldest first, each paired with exactly its own open incidents |
| Snapshot.SnapshotShowsOnlyOpenIncidents | server/controllers/incidents.controller.js:267-282 | a snapshot never lists a resolved incident, nor an incident beside a service it does not belong to |
| ServiceRules.CreateService | server/controllers/service.controller.js:37-74 | Forbidden for a non-Admin, then InvalidStatus, NotFound for a missing organisation, Forbidden for someone else's organisation, DuplicateName for a name used in that organisation, ServerError for an empty name; on success exactly one new service with the given name and status; a failure changes nothing |
| ServiceRules.ResolveOpenOf | server/controllers/service.controller.js:165-170 | every incident of the service ends resolved, every other incident is unchanged, no incident is added or removed |
| ServiceRules.ChangeStatus | server/controllers/service.controller.js:159-186 | the service takes the new status; Operational resolves every incident of the service and no other; leaving Operational with no open incident adds exactly one open "Auto Incident - {status}" with the next identifier; any other change leaves the incidents alone; the database stays valid |
| ServiceRules.UpdateServiceStatus | server/controllers/service.controller.js:132-187 | InvalidStatus before any lookup, then NotFound, then Forbidden unless admin or collaborator; on success the service has the requested status; Operational resolves all its incidents; leaving Operational with no open incident adds exactly one "Auto Incident - {status}"; otherwise incidents are unchanged |
| ServiceRules.DeleteService | server/controllers/service.controller.js:220-235 | NotFound, then Forbidden unless the organisation's admin; removes only that service, its incidents remain |
| ServiceRules.ServicesByOrg | server/controllers/service.controller.js:94-116 | NotFound for a missing organisation; otherwise the snapshot and a flag true exactly when the caller collaborates |
| ServiceRules.CreateServiceKeepsStatusRule | server/controllers/service.controller.js:74 | creating a service keeps the status rule |
| ServiceRules.UpdateServiceStatusKeepsStatusRule | server/controllers/service.controller.js:160-186 | a manual status change keeps the status rule |
| ServiceRules.DeleteServiceKeepsStatusRule | server/controllers/service.controller.js:235 | deleting a service keeps the status rule |
| ServiceRules.LeavingOperationalFilesOneIncident | server/controllers/service.controller.js:171-186 | under the status rule, leaving Operational by hand always adds exactly one auto incident |
| ServiceRules.OutageWithoutIncident | server/controllers/service.controller.js:44-74 | a service can be created in Major Outage with no incident at all |
| IncidentRules.OwningOrg | server/controllers/incidents.controller.js:82-83 | the organisation of the incident's service, absent when the service or the organisation is gone |
| IncidentRules.Recompute | server/controllers/incidents.controller.js:100-109 | the service becomes Operational when no open incident of it is left, and otherwise keeps its status; no other service changes |
| IncidentRules.CreateIncident | server/controllers/incidents.controller.js:11-39 | NotFound, then Forbidden unless admin or collaborator, ServerError for an empty name or message; on success one new open incident and the service in Degraded Performance whatever it was |
| IncidentRules.UpdateIncidentStatus | server/controllers/incidents.controller.js:67-109 | InvalidStatus for anything but "resolved" before any lookup, then NotFound, then Forbidden; on success the incident is resolved and the service recomputed |
| IncidentRules.UpdateIncidentMessage | server/controllers/incidents.controller.js:141-172 | MissingField for a missing or empty message first, then NotFound, then Forbidden; on success only that incident's message changes |
| IncidentRules.DeleteIncident | server/controllers/incidents.controller.js:216-246 | NotFound, then Forbidden unless the organisation's admin (collaborators too); on success the incident is gone and the service recomputed |
| IncidentRules.IncidentsByService | server/controllers/incidents.controller.js:193-198 | every incident of the service, open or resolved, newest first |
| IncidentRules.CreateIncidentKeepsStatusRule | server/controllers/incidents.controller.js:31-39 | filing an incident keeps the status rule |
| IncidentRules.UpdateIncidentStatusKeepsStatusRule | server/controllers/incidents.controller.js:97-109 | resolving an incident keeps the status rule |
| IncidentRules.UpdateIncidentMessageKeepsStatusRule | server/controllers/incidents.controller.js:171-172 | editing a message keeps the status rule |
| IncidentRules.DeleteIncidentKeepsStatusRule | server/controllers/incidents.controller.js:235-246 | deleting an incident keeps the status rule |
| IncidentRules.ResolvingRecomputesStatus | server/controllers/incidents.controller.js:100-109 | after resolving, the service is Operational exactly when it has no open incident left, and otherwise keeps its status |
| IncidentRules.DeletingRecomputesStatus | server/controllers/incidents.controller.js:235-246 | after deleting, the service is Operational exactly when it has no open incident left, and otherwise keeps its status |
| CollabRules.AddOnce | server/controllers/collaborator.controller.js:102-105 | the user is listed afterwards, the list only grows at its end, and a list without duplicates stays so |
| CollabRules.Without | server/controllers/collaborator.controller.js:194-196 | the user is no longer listed, and every other user keeps exactly their number of entries |
| CollabRules.RequestCollaboration | server/controllers/collaborator.controller.js:11-51 | NotFound, AlreadyAdmin, AlreadyCollaborator, RequestPending in that order with no change; on success exactly one new Pending request of the caller |
| CollabRules.RespondToRequest | server/controllers/collaborator.controller.js:71-106 | NotFound, ServerError for a deleted organisation, Forbidden unless its admin (before the answer is looked at), then InvalidStatus; on success the request takes the answer, Accepted adds the user once, Rejected leaves the collaborators |
| CollabRules.SuspendCollaborator | server/controllers/collaborator.controller.js:176-198 | NotFound, Forbidden unless the organisation's admin or any Admin-role caller, ServerError for a missing request; on success the request is Pending and exactly that user leaves the collaborators |
| CollabRules.PendingRequests | server/controllers/collaborator.controller.js:123-138 | Forbidden unless the role is Admin; otherwise exactly the Pending requests of every organisation, each once |
| CollabRules.MyRequests | server/controllers/collaborator.controller.js:157-160 | exactly the caller's requests, whatever their status, each once |
| CollabRules.ActiveCollaborators | server/controllers/collaborator.controller.js:213-242 | Forbidden unless the role is Admin; otherwise exactly the Accepted requests of the organisations the caller administers, each once |
| CollabRules.RequestKeepsOnePending | server/controllers/collaborator.controller.js:36-51 | asking to collaborate keeps at most one Pending request per organisation and user |
| CollabRules.SecondRequestIsRefused | server/controllers/collaborator.controller.js:36-46 | a second request while the first is Pending is refused with RequestPending and changes nothing |
| CollabRules.AcceptIsIdempotent | server/controllers/collaborator.controller.js:97-106 | accepting an accepted request again changes nothing: no collaborator is listed twice |
| CollabRules.SuspendThenAcceptRestores | server/controllers/collaborator.controller.js:190-198 | suspending and then accepting the same request lists the user exactly once again |
| CollabRules.SuspendMayDuplicatePending | server/controllers/collaborator.controller.js:190-192 | a suspension can leave two Pending requests for one organisation and user, because `reqId` is not checked |
| OrgRules.CreateOrganization | server/controllers/organization.controller.js:9-35 | Forbidden for a non-Admin, MissingField for an empty name, DuplicateName for a name used by any organisation; on success one new organisation administered by the caller with no collaborators |
| OrgRules.DeleteOrganization | server/controllers/organization.controller.js:53-73 | NotFound, then Forbidden unless the caller has role Admin and administers it; removes only the organisation record |
| OrgRules.ServiceCount | server/controllers/organization.controller.js:104-106 | the number of services the organisation owns |
| OrgRules.OrganizationsForUser | server/controllers/organization.controller.js:90-118 | one entry per organisation with isAdmin exactly when the caller is its admin, isCollaborator exactly when listed, and its service count |
| OrgRules.AdministeredBy | server/controllers/organization.controller.js:140-156 | exactly the organisations whose admin is the caller, oldest first, each with its service count |
| OrgRules.MyOrganizationsAsAdmin | server/controllers/organization.controller.js:133-156 | Forbidden unless the role is Admin; otherwise the caller's organisations |
| OrgRules.CreateKeepsNamesUnique | server/controllers/organization.controller.js:24-35 | creating an organisation keeps names unique |
| OrgRules.FounderSeesNewOrganization | server/controllers/organization.controller.js:32-35 | a new organisation shows in its founder's listing as administered, not collaborated on, with no service |
| OrgRules.DeletedOrganizationStrandsServices | server/controllers/organization.controller.js:73 | after deleting an organisation its services remain; changing one's status fails with a server error, and deleting one is forbidden to every caller |
| StatusStore.Store.CreateOrganization | server/controllers/organization.controller.js:9-35 | new store and answer are exactly those of `OrgRules.CreateOrganization`; validity kept |
| StatusStore.Store.DeleteOrganization | server/controllers/organization.controller.js:53-73 | exactly `OrgRules.DeleteOrganization`; validity kept |
| StatusStore.Store.CreateService | server/controllers/service.controller.js:37-74 | exactly `ServiceRules.CreateService`; validity and the status rule kept |
| StatusStore.Store.UpdateServiceStatus | server/controllers/service.controller.js:132-187 | exactly `ServiceRules.UpdateServiceStatus`; validity and the status rule kept |
| StatusStore.Store.ChangeStatus | server/controllers/service.controller.js:159-186 | the store becomes exactly `ServiceRules.ChangeStatus` of the old one |
| StatusStore.Store.DeleteService | server/controllers/service.controller.js:220-235 | exactly `ServiceRules.DeleteService`; validity and the status rule kept |
| StatusStore.Store.CreateIncident | server/controllers/incidents.controller.js:11-39 | exactly `IncidentRules.CreateIncident`; validity and the status rule kept |
| StatusStore.Store.RecomputeStatus | server/controllers/incidents.controller.js:100-109 | the services become `IncidentRules.Recompute` of the old ones; nothing else changes |
| StatusStore.Store.UpdateIncidentStatus | server/controllers/incidents.controller.js:67-109 | exactly `IncidentRules.UpdateIncidentStatus`; validity and the status rule kept |
| StatusStore.Store.UpdateIncidentMessage | server/controllers/incidents.controller.js:141-172 | exactly `IncidentRules.UpdateIncidentMessage`; validity and the status rule kept |
| StatusStore.Store.DeleteIncident | server/controllers/incidents.controller.js:216-246 | exactly `IncidentRules.DeleteIncident`; validity and the status rule kept |
| StatusStore.Store.RequestCollaboration | server/controllers/collaborator.controller.js:11-51 | exactly `CollabRules.RequestCollaboration`; validity kept |
| StatusStore.Store.RespondToRequest | server/controllers/collaborator.controller.js:71-106 | exactly `CollabRules.RespondToRequest`; validity kept |
| StatusStore.Store.SuspendCollaborator | server/controllers/collaborator.controller.js:176-198 | exactly `CollabRules.SuspendCollaborator`; validity kept |
| Scenarios.OutageThenRecovery | server/controllers/service.controller.js:160-186 | Operational, an outage, Operational again: exactly one incident is filed, it ends resolved, and no open incident is left |
| Scenarios.TwoIncidents | server/controllers/incidents.controller.js:31-39 | two incidents filed in a row both exist and are open, and the service ends in Degraded Performance |

## Left out

- Persistence (MongoDB through Mongoose) becomes the `Database` value and the `Store` fields. Malformed identifiers, which make Mongoose throw a cast error, cannot occur, since identifiers are numbers.
- Concurrency: the handlers await between reading and writing and take no locks. The model runs each handler as one step and does not model interleavings.
- socket.io: joining rooms and emitting the snapshot after each change. The snapshot itself is `Snapshot.ServicesWithIncidents`; sending it is not modelled.
- Authentication (JWT, cookies, bcrypt) and the user controller: the caller's identifier and role are parameters. User records are not modelled. So `populate` dropping a deleted user, and a handler throwing because an organisation's admin user is gone, are not modelled.
- Routes: the model covers every handler of the four controllers, including those no route registers.
- The React client and the Redux slices.
- Timestamps: `createdAt` order is identifier order, which is how the model reads "newest first".
- ActiveCollaborators: the handler sorts by `updatedAt`, newest first. The model returns the same set of requests in identifier order, because update times are not modelled.
- OrganizationsForUser, MyOrganizationsAsAdmin, PendingRequests, MyRequests: an unsorted `find` returns records in identifier order in the model. The store does not promise any order.
- Snapshot.ServicesWithIncidents, Snapshot.OpenIncidentsOf: both `find` queries of the snapshot are unsorted too, so their oldest-first order is the model's choice, not a promise of the store.
- UpdateIncidentMessage: a body `issueMessage` that is not a string is modelled as absent (`None`), which the handler treats the same way.
- The fields a response carries besides the modelled ones (populated names and e-mails, `createdAt`, `updatedAt`, messages) are left out.

=== FILE: collaboration.dfy ===
/**
 * The collaboration state machine: a user asks to collaborate on an
 * organisation, its admin accepts or rejects, and a collaborator can be
 * suspended, which sends the request back to Pending. Plus the three
 * request listings.
 */
module CollabRules {
  import opened Records
  import opened Selection

  /** `xs` with `x` pushed at the end unless it is already there. */
  function AddOnce(xs: seq<Id>, x: Id): (ys: seq<Id>)
    ensures x in ys
    ensures forall y :: y in ys <==> y in xs || y == x
    ensures |xs| <= |ys| && ys[..|xs|] == xs
    ensures NoDuplicates(xs) ==> NoDuplicates(ys)
  {
    if x in xs then xs else xs + [x]
  }

  /** `xs` with every occurrence of `x` filtered out and every other entry kept. */
  function Without(xs: seq<Id>, x: Id): (ys: seq<Id>)
    ensures x !in ys
    ensures forall y :: y in ys <==> y in xs && y != x
    ensures forall y :: y != x ==> multiset(ys)[y] == multiset(xs)[y]
    ensures NoDuplicates(xs) ==> NoDuplicates(ys)
  {
    if xs == [] then []
    else
      var rest := Without(xs[1..], x);
      assert xs == [xs[0]] + xs[1..];
      if xs[0] == x then rest
      else
        assert xs[0] !in xs[1..] ==> xs[0] !in rest;
        [xs[0]] + rest
  }

  /** Whether `user` has a Pending request for organisation `orgId`. */
  predicate HasPendingRequest(requests: map<Id, CollabRequest>, orgId: Id, user: Id) {
    exists r :: r in requests && requests[r].org == orgId && requests[r].user == user && requests[r].status == Pending
  }

  /** `requestCollaboration`: any user other than the admin and the current collaborators asks to join,
      at most one Pending request at a time. */
  function RequestCollaboration(db: Database, caller: Actor, orgId: Id): (out: Step<Id>)
    requires db.Valid()
    ensures out.db.Valid()
    ensures out.result.Err? ==> out.db == db
    ensures orgId !in db.orgs ==> out.result == Err(NotFound)
    ensures orgId in db.orgs && db.orgs[orgId].admin == caller.id ==> out.result == Err(AlreadyAdmin)
    ensures (orgId in db.orgs && db.orgs[orgId].admin != caller.id
             && caller.id in db.orgs[orgId].collaborators) ==> out.result == Err(AlreadyCollaborator)
    ensures (orgId in db.orgs && db.orgs[orgId].admin != caller.id && caller.id !in db.orgs[orgId].collaborators
             && HasPendingRequest(db.requests, orgId, caller.id)) ==> out.result == Err(RequestPending)
    ensures out.result.Ok? <==>
      && orgId in db.orgs && db.orgs[orgId].admin != caller.id && caller.id !in db.orgs[orgId].collaborators
      && !HasPendingRequest(db.requests, orgId, caller.id)
    ensures out.result.Ok? ==>
      && out.result.value == db.nextId && db.nextId !in db.requests
      && out.db == db.(requests := db.requests[db.nextId := CollabRequest(orgId, caller.id, Pending)],
                       nextId := db.nextId + 1)
  {
    if orgId !in db.orgs then Step(db, Err(NotFound))
    else
      var org := db.orgs[orgId];
      if org.admin == caller.id then Step(db, Err(AlreadyAdmin))
      else if caller.id in org.collaborators then Step(db, Err(AlreadyCollaborator))
      else if HasPendingRequest(db.requests, orgId, caller.id) then Step(db, Err(RequestPending))
      else
        var id := db.nextId;
        Step(db.(requests := db.requests[id := CollabRequest(orgId, caller.id, Pending)], nextId := id + 1), Ok(id))
  }

  /** `respondToCollabRequest`: the organisation's admin accepts or rejects a request; the admin check
      comes before the answer is looked at, and accepting adds the user once. */
  function RespondToRequest(db: Database, caller: Actor, rid: Id, status: string): (out: Step<CollabRequest>)
    requires db.Valid()
    ensures out.db.Valid()
    ensures out.result.Err? ==> out.db == db
    ensures rid !in db.requests ==> out.result == Err(NotFound)
    ensures rid in db.requests && db.requests[rid].org !in db.orgs ==> out.result == Err(ServerError)
    ensures (rid in db.requests && db.requests[rid].org in db.orgs
             && db.orgs[db.requests[rid].org].admin != caller.id) ==> out.result == Err(Forbidden)
    ensures (rid in db.requests && db.requests[rid].org in db.orgs
             && db.orgs[db.requests[rid].org].admin == caller.id && ParseDecision(status).None?) ==>
      out.result == Err(InvalidStatus)
    ensures out.result.Ok? <==>
      && rid in db.requests && db.requests[rid].org in db.orgs
      && db.orgs[db.requests[rid].org].admin == caller.id && ParseDecision(status).Some?
    ensures out.result.Ok? ==>
      var req := db.requests[rid];
      && out.result.value == req.(status := ParseDecision(status).value)
      && out.db.requests == db.requests[rid := out.result.value]
      && out.db.services == db.services && out.db.incidents == db.incidents && out.db.nextId == db.nextId
      && (ParseDecision(status) == Some(Accepted) ==>
            out.db.orgs == db.orgs[req.org := db.orgs[req.org].(
                             collaborators := AddOnce(db.orgs[req.org].collaborators, req.user))])
      && (ParseDecision(status) == Some(Rejected) ==> out.db.orgs == db.orgs)
  {
    if rid !in db.requests then Step(db, Err(NotFound))
    else
      var req := db.requests[rid];
      // the populated organisation is null and dereferencing it throws
      if req.org !in db.orgs then Step(db, Err(ServerError))
      else
        var org := db.orgs[req.org];
        if org.admin != caller.id then Step(db, Err(Forbidden))
        else match ParseDecision(status)
          case None => Step(db, Err(InvalidStatus))
          case Some(decision) =>
            var answered := req.(status := decision);
            var db1 := db.(requests := db.requests[rid := answered]);
            if decision == Accepted && req.user !in org.collaborators then
              Step(db1.(orgs := db.orgs[req.org := org.(collaborators := org.collaborators + [req.user])]), Ok(answered))
            else Step(db1, Ok(answered))
  }

  /** `suspendCollaborator`: the organisation's admin, or any user whose role is Admin, removes a
      collaborator and sets the given request back to Pending. The request is not checked to belong
      to that organisation or user. */
  function SuspendCollaborator(db: Database, caller: Actor, orgId: Id, user: Id, rid: Id): (out: Step<()>)
    requires db.Valid()
    ensures out.db.Valid()
    ensures out.result.Err? ==> out.db == db
    ensures orgId !in db.orgs ==> out.result == Err(NotFound)
    ensures (orgId in db.orgs && db.orgs[orgId].admin != caller.id && caller.role != Admin) ==>
      out.result == Err(Forbidden)
    ensures (orgId in db.orgs && (db.orgs[orgId].admin == caller.id || caller.role == Admin)
             && rid !in db.requests) ==> out.result == Err(ServerError)
    ensures out.result.Ok? <==>
      orgId in db.orgs && (db.orgs[orgId].admin == caller.id || caller.role == Admin) && rid in db.requests
    ensures out.result.Ok? ==>
      && out.db.requests == db.requests[rid := db.requests[rid].(status := Pending)]
      && out.db.orgs == db.orgs[orgId := db.orgs[orgId].(collaborators := Without(db.orgs[orgId].collaborators, user))]
      && out.db.services == db.services && out.db.incidents == db.incidents && out.db.nextId == db.nextId
  {
    if orgId !in db.orgs then Step(db, Err(NotFound))
    else
      var org := db.orgs[orgId];
      if org.admin != caller.id && caller.role != Admin then Step(db, Err(Forbidden))
      // the request lookup yields null and assigning to it throws
      else if rid !in db.requests then Step(db, Err(ServerError))
      else
        Step(db.(requests := db.requests[rid := db.requests[rid].(status := Pending)],
                 orgs := db.orgs[orgId := org.(collaborators := Without(org.collaborators, user))]),
             Ok(()))
  }

  /** `getPendingAdminRequests`: any caller whose role is Admin sees every Pending request, of every
      organisation. */
  function PendingRequests(db: Database, caller: Actor): (r: Result<seq<(Id, CollabRequest)>>)
    requires db.Valid()
    ensures r.Err? <==> caller.role != Admin
    ensures r.Err? ==> r.error == Forbidden
    ensures r.Ok? ==> forall e :: e in r.value ==>
      e.0 in db.requests && db.requests[e.0] == e.1 && e.1.status == Pending
    ensures r.Ok? ==> forall id :: id in db.requests && db.requests[id].status == Pending ==>
      (id, db.requests[id]) in r.value
    ensures r.Ok? ==> forall i, j :: 0 <= i < j < |r.value| ==> r.value[i].0 != r.value[j].0
  {
    if caller.role != Admin then Err(Forbidden)
    else Ok(Select(db.requests, (req: CollabRequest) => req.status == Pending, db.nextId))
  }

  /** `getMyRequests`: the caller's own requests, whatever their status. */
  function MyRequests(db: Database, caller: Actor): (r: seq<(Id, CollabRequest)>)
    requires db.Valid()
    ensures forall e :: e in r ==> e.0 in db.requests && db.requests[e.0] == e.1 && e.1.user == caller.id
    ensures forall id :: id in db.requests && db.requests[id].user == caller.id ==> (id, db.requests[id]) in r
    ensures forall i, j :: 0 <= i < j < |r| ==> r[i].0 != r[j].0
  {
    Select(db.requests, (req: CollabRequest) => req.user == caller.id, db.nextId)
  }

  /** `getActiveCollaborators`: for a caller whose role is Admin, the Accepted requests of the
      organisations they administer. */
  function ActiveCollaborators(db: Database, caller: Actor): (r: Result<seq<(Id, CollabRequest)>>)
    requires db.Valid()
    ensures r.Err? <==> caller.role != Admin
    ensures r.Err? ==> r.error == Forbidden
    ensures r.Ok? ==> forall e :: e in r.value ==>
      && e.0 in db.requests && db.requests[e.0] == e.1 && e.1.status == Accepted
      && e.1.org in db.orgs && db.orgs[e.1.org].admin == caller.id
    ensures r.Ok? ==> forall id :: (id in db.requests && db.requests[id].status == Accepted
                                    && db.requests[id].org in db.orgs
                                    && db.orgs[db.requests[id].org].admin == caller.id) ==>
      (id, db.requests[id]) in r.value
    ensures r.Ok? ==> forall i, j :: 0 <= i < j < |r.value| ==> r.value[i].0 != r.value[j].0
  {
    if caller.role != Admin then Err(Forbidden)
    else if !exists o :: o in db.orgs && db.orgs[o].admin == caller.id then Ok([])
    else
      Ok(Select(db.requests,
                (req: CollabRequest) => req.status == Accepted && req.org in db.orgs && db.orgs[req.org].admin == caller.id,
                db.nextId))
  }

  // ---- Properties across calls ----

  /** At most one Pending request per organisation and user. */
  ghost predicate AtMostOnePending(requests: map<Id, CollabRequest>) {
    forall a, b ::
      (a in requests && b in requests && a != b
       && requests[a].status == Pending && requests[b].status == Pending) ==>
      requests[a].org != requests[b].org || requests[a].user != requests[b].user
  }

  /** Asking to collaborate never creates a second Pending request for the same organisation and user. */
  lemma RequestKeepsOnePending(db: Database, caller: Actor, orgId: Id)
    requires db.Valid() && AtMostOnePending(db.requests)
    ensures AtMostOnePending(RequestCollaboration(db, caller, orgId).db.requests)
  {
    var out := RequestCollaboration(db, caller, orgId);
    if out.result.Ok? {
      var id := db.nextId;
      forall a, b | a in out.db.requests && b in out.db.requests && a != b
                    && out.db.requests[a].status == Pending && out.db.requests[b].status == Pending
        ensures out.db.requests[a].org != out.db.requests[b].org || out.db.requests[a].user != out.db.requests[b].user
      {
        if a == id {
          assert b in db.requests;
        } else if b == id {
          assert a in db.requests;
        }
      }
    }
  }

  /** A second request while the first is still Pending is refused and changes nothing. */
  lemma SecondRequestIsRefused(db: Database, caller: Actor, orgId: Id)
    requires db.Valid()
    requires RequestCollaboration(db, caller, orgId).result.Ok?
    ensures var first := RequestCollaboration(db, caller, orgId);
            RequestCollaboration(first.db, caller, orgId) == Step(first.db, Err(RequestPending))
  {
    var first := RequestCollaboration(db, caller, orgId);
    assert first.db.requests[db.nextId].status == Pending;
  }

  /** Accepting a request that was just accepted changes nothing more: no collaborator is listed twice. */
  lemma AcceptIsIdempotent(db: Database, caller: Actor, rid: Id)
    requires db.Valid()
    requires RespondToRequest(db, caller, rid, "Accepted").result.Ok?
    ensures var once := RespondToRequest(db, caller, rid, "Accepted");
            RespondToRequest(once.db, caller, rid, "Accepted") == once
  {
  }

  /** Suspending a collaborator and accepting their request again lists them exactly once. */
  lemma SuspendThenAcceptRestores(db: Database, admin: Actor, rid: Id)
    requires db.Valid()
    requires rid in db.requests && db.requests[rid].org in db.orgs
    requires db.orgs[db.requests[rid].org].admin == admin.id
    ensures var orgId, user := db.requests[rid].org, db.requests[rid].user;
            var suspended := SuspendCollaborator(db, admin, orgId, user, rid);
            var accepted := RespondToRequest(suspended.db, admin, rid, "Accepted");
            && suspended.result.Ok?
            && suspended.db.requests[rid].status == Pending
            && user !in suspended.db.orgs[orgId].collaborators
            && accepted.result.Ok?
            && accepted.db.requests[rid].status == Accepted
            && multiset(accepted.db.orgs[orgId].collaborators)[user] == 1
  {
    var orgId, user := db.requests[rid].org, db.requests[rid].user;
    var suspended := SuspendCollaborator(db, admin, orgId, user, rid);
    var without := suspended.db.orgs[orgId].collaborators;
    assert user !in without;
    assert multiset(without + [user])[user] == multiset(without)[user] + 1;
  }

  /** Because the request to reset is not checked against the organisation and the user, a suspension
      can leave two Pending requests for the same pair. */
  lemma SuspendMayDuplicatePending()
    ensures var db := Database(map[0 := Organization("acme", 1, [])], map[], map[],
                               map[3 := CollabRequest(0, 2, Rejected), 4 := CollabRequest(0, 2, Pending)], 5);
            var out := SuspendCollaborator(db, Actor(1, User), 0, 2, 3);
            && db.Valid() && AtMostOnePending(db.requests)
            && out.result.Ok? && !AtMostOnePending(out.db.requests)
  {
    var db := Database(map[0 := Organization("acme", 1, [])], map[], map[],
                       map[3 := CollabRequest(0, 2, Rejected), 4 := CollabRequest(0, 2, Pending)], 5);
    var out := SuspendCollaborator(db, Actor(1, User), 0, 2, 3);
    assert out.db.requests[3].status == Pending && out.db.requests[4].status == Pending;
  }
}

=== FILE: incidents.dfy ===
/**
 * The incident handlers: filing an incident, resolving it, editing its
 * message, deleting it, and the per-service incident history.
 */
module IncidentRules {
  import opened Records
  import opened Selection

  /** The organisation that owns incident `iid` through its service, when both records still exist. */
  function OwningOrg(db: Database, iid: Id): (o: Option<Organization>)
    requires iid in db.incidents
    ensures o.Some? <==>
      db.incidents[iid].service in db.services && db.services[db.incidents[iid].service].org in db.orgs
    ensures o.Some? ==> o.value == db.orgs[db.services[db.incidents[iid].service].org]
  {
    var sid := db.incidents[iid].service;
    if sid in db.services && db.services[sid].org in db.orgs then Some(db.orgs[db.services[sid].org]) else None
  }

  /** The service status after an incident of `sid` was resolved or deleted: Operational once no open
      incident of `sid` is left, untouched otherwise. */
  function Recompute(services: map<Id, Service>, incidents: map<Id, Incident>, sid: Id): (r: map<Id, Service>)
    requires sid in services
    ensures r.Keys == services.Keys
    ensures forall s :: s in services && s != sid ==> r[s] == services[s]
    ensures r[sid] == if HasOpenIncident(incidents, sid) then services[sid]
                      else services[sid].(status := Operational)
  {
    if HasOpenIncident(incidents, sid) then services else services[sid := services[sid].(status := Operational)]
  }

  /** `createIncident`: an admin or collaborator files an open incident; the service is then
      Degraded Performance, whatever its status was. */
  function CreateIncident(db: Database, caller: Actor, sid: Id, name: string, issueMessage: string): (out: Step<Id>)
    requires db.Valid()
    ensures out.db.Valid()
    ensures out.result.Err? ==> out.db == db
    ensures sid !in db.services ==> out.result == Err(NotFound)
    ensures sid in db.services && db.services[sid].org !in db.orgs ==> out.result == Err(ServerError)
    ensures (sid in db.services && db.services[sid].org in db.orgs
             && !MayEdit(db.orgs[db.services[sid].org], caller.id)) ==> out.result == Err(Forbidden)
    ensures (sid in db.services && db.services[sid].org in db.orgs
             && MayEdit(db.orgs[db.services[sid].org], caller.id)
             && (name == "" || issueMessage == "")) ==> out.result == Err(ServerError)
    ensures out.result.Ok? <==>
      && sid in db.services && db.services[sid].org in db.orgs
      && MayEdit(db.orgs[db.services[sid].org], caller.id)
      && name != "" && issueMessage != ""
    ensures out.result.Ok? ==>
      && out.result.value == db.nextId && db.nextId !in db.incidents
      && out.db.incidents == db.incidents[db.nextId := Incident(sid, name, Open, issueMessage)]
      && out.db.services == db.services[sid := db.services[sid].(status := DegradedPerformance)]
      && out.db.orgs == db.orgs && out.db.requests == db.requests && out.db.nextId == db.nextId + 1
  {
    if sid !in db.services then Step(db, Err(NotFound))
    else
      var service := db.services[sid];
      // the organisation lookup yields null and dereferencing it throws
      if service.org !in db.orgs then Step(db, Err(ServerError))
      else if !MayEdit(db.orgs[service.org], caller.id) then Step(db, Err(Forbidden))
      // the schema requires both texts, so creating the incident without them throws
      else if name == "" || issueMessage == "" then Step(db, Err(ServerError))
      else
        var id := db.nextId;
        Step(db.(incidents := db.incidents[id := Incident(sid, name, Open, issueMessage)],
                 services := db.services[sid := service.(status := DegradedPerformance)],
                 nextId := id + 1),
             Ok(id))
  }

  /** `updateIncidentStatus`: an admin or collaborator resolves an incident ("resolved" is the only
      status accepted), then the service's status is recomputed. */
  function UpdateIncidentStatus(db: Database, caller: Actor, iid: Id, status: string): (out: Step<Incident>)
    requires db.Valid()
    ensures out.db.Valid()
    ensures out.result.Err? ==> out.db == db
    ensures status != "resolved" ==> out.result == Err(InvalidStatus)
    ensures status == "resolved" && iid !in db.incidents ==> out.result == Err(NotFound)
    ensures status == "resolved" && iid in db.incidents && OwningOrg(db, iid).None? ==>
      out.result == Err(ServerError)
    ensures (status == "resolved" && iid in db.incidents && OwningOrg(db, iid).Some?
             && !MayEdit(OwningOrg(db, iid).value, caller.id)) ==> out.result == Err(Forbidden)
    ensures out.result.Ok? <==>
      && status == "resolved" && iid in db.incidents && OwningOrg(db, iid).Some?
      && MayEdit(OwningOrg(db, iid).value, caller.id)
    ensures out.result.Ok? ==>
      var sid := db.incidents[iid].service;
      && out.result.value == db.incidents[iid].(status := Resolved)
      && out.db.incidents == db.incidents[iid := out.result.value]
      && out.db.services.Keys == db.services.Keys
      && (forall s :: s in db.services && s != sid ==> out.db.services[s] == db.services[s])
      && (HasOpenIncident(out.db.incidents, sid) ==> out.db.services[sid] == db.services[sid])
      && (!HasOpenIncident(out.db.incidents, sid) ==> out.db.services[sid].status == Operational)
      && out.db.services[sid].name == db.services[sid].name && out.db.services[sid].org == db.services[sid].org
      && out.db.orgs == db.orgs && out.db.requests == db.requests && out.db.nextId == db.nextId
  {
    if status != "resolved" then Step(db, Err(InvalidStatus))
    else if iid !in db.incidents then Step(db, Err(NotFound))
    else match OwningOrg(db, iid)
      // a missing service or organisation is dereferenced and throws
      case None => Step(db, Err(ServerError))
      case Some(org) =>
        if !MayEdit(org, caller.id) then Step(db, Err(Forbidden))
        else
          var resolved := db.incidents[iid].(status := Resolved);
          var incidents := db.incidents[iid := resolved];
          Step(db.(incidents := incidents, services := Recompute(db.services, incidents, resolved.service)),
               Ok(resolved))
  }

  /** `updateIncidentMessage`: an admin or collaborator replaces an incident's message; a missing or
      empty message is refused before anything is looked up. `None` stands for a missing or
      non-text message. */
  function UpdateIncidentMessage(db: Database, caller: Actor, iid: Id, message: Option<string>): (out: Step<Incident>)
    requires db.Valid()
    ensures out.db.Valid()
    ensures out.result.Err? ==> out.db == db
    ensures (message.None? || message.value == "") ==> out.result == Err(MissingField)
    ensures (message.Some? && message.value != "" && iid !in db.incidents) ==> out.result == Err(NotFound)
    ensures (message.Some? && message.value != "" && iid in db.incidents && OwningOrg(db, iid).None?) ==>
      out.result == Err(ServerError)
    ensures (message.Some? && message.value != "" && iid in db.incidents && OwningOrg(db, iid).Some?
             && !MayEdit(OwningOrg(db, iid).value, caller.id)) ==> out.result == Err(Forbidden)
    ensures out.result.Ok? <==>
      && message.Some? && message.value != "" && iid in db.incidents && OwningOrg(db, iid).Some?
      && MayEdit(OwningOrg(db, iid).value, caller.id)
    ensures out.result.Ok? ==>
      && out.result.value == db.incidents[iid].(issueMessage := message.value)
      && out.db == db.(incidents := db.incidents[iid := out.result.value])
  {
    if message.None? || message.value == "" then Step(db, Err(MissingField))
    else if iid !in db.incidents then Step(db, Err(NotFound))
    else match OwningOrg(db, iid)
      case None => Step(db, Err(ServerError))
      case Some(org) =>
        if !MayEdit(org, caller.id) then Step(db, Err(Forbidden))
        else
          var edited := db.incidents[iid].(issueMessage := message.value);
          Step(db.(incidents := db.incidents[iid := edited]), Ok(edited))
  }

  /** `deleteIncident`: only the organisation's admin may delete an incident; the service's status is
      then recomputed. */
  function DeleteIncident(db: Database, caller: Actor, iid: Id): (out: Step<()>)
    requires db.Valid()
    ensures out.db.Valid()
    ensures out.result.Err? ==> out.db == db
    ensures iid !in db.incidents ==> out.result == Err(NotFound)
    ensures iid in db.incidents && OwningOrg(db, iid).None? ==> out.result == Err(ServerError)
    ensures (iid in db.incidents && OwningOrg(db, iid).Some? && OwningOrg(db, iid).value.admin != caller.id) ==>
      out.result == Err(Forbidden)
    ensures out.result.Ok? <==>
      iid in db.incidents && OwningOrg(db, iid).Some? && OwningOrg(db, iid).value.admin == caller.id
    ensures out.result.Ok? ==>
      var sid := db.incidents[iid].service;
      && out.db.incidents == db.incidents - {iid}
      && out.db.services.Keys == db.services.Keys
      && (forall s :: s in db.services && s != sid ==> out.db.services[s] == db.services[s])
      && (HasOpenIncident(out.db.incidents, sid) ==> out.db.services[sid] == db.services[sid])
      && (!HasOpenIncident(out.db.incidents, sid) ==> out.db.services[sid].status == Operational)
      && out.db.services[sid].name == db.services[sid].name && out.db.services[sid].org == db.services[sid].org
      && out.db.orgs == db.orgs && out.db.requests == db.requests && out.db.nextId == db.nextId
  {
    if iid !in db.incidents then Step(db, Err(NotFound))
    else match OwningOrg(db, iid)
      case None => Step(db, Err(ServerError))
      case Some(org) =>
        if org.admin != caller.id then Step(db, Err(Forbidden))
        else
          var sid := db.incidents[iid].service;
          var incidents := db.incidents - {iid};
          Step(db.(incidents := incidents, services := Recompute(db.services, incidents, sid)), Ok(()))
  }

  /** `getIncidentsByService`: every incident of service `sid`, open or resolved, newest first. */
  function IncidentsByService(db: Database, sid: Id): (r: seq<(Id, Incident)>)
    requires db.Valid()
    ensures forall e :: e in r ==> e.0 in db.incidents && db.incidents[e.0] == e.1 && e.1.service == sid
    ensures forall i :: i in db.incidents && db.incidents[i].service == sid ==> (i, db.incidents[i]) in r
    ensures forall i, j :: 0 <= i < j < |r| ==> r[i].0 > r[j].0
  {
    SelectNewestFirst(db.incidents, (inc: Incident) => inc.service == sid, db.nextId)
  }

  // ---- The status rule ----

  /** Filing an incident keeps the status rule: its service is no longer Operational. */
  lemma CreateIncidentKeepsStatusRule(db: Database, caller: Actor, sid: Id, name: string, issueMessage: string)
    requires db.Valid() && NoOpenIncidentWhileOperational(db)
    ensures NoOpenIncidentWhileOperational(CreateIncident(db, caller, sid, name, issueMessage).db)
  {
  }

  /** Resolving an incident keeps the status rule. */
  lemma UpdateIncidentStatusKeepsStatusRule(db: Database, caller: Actor, iid: Id, status: string)
    requires db.Valid() && NoOpenIncidentWhileOperational(db)
    ensures NoOpenIncidentWhileOperational(UpdateIncidentStatus(db, caller, iid, status).db)
  {
  }

  /** Editing a message keeps the status rule. */
  lemma UpdateIncidentMessageKeepsStatusRule(db: Database, caller: Actor, iid: Id, message: Option<string>)
    requires db.Valid() && NoOpenIncidentWhileOperational(db)
    ensures NoOpenIncidentWhileOperational(UpdateIncidentMessage(db, caller, iid, message).db)
  {
  }

  /** Deleting an incident keeps the status rule. */
  lemma DeleteIncidentKeepsStatusRule(db: Database, caller: Actor, iid: Id)
    requires db.Valid() && NoOpenIncidentWhileOperational(db)
    ensures NoOpenIncidentWhileOperational(DeleteIncident(db, caller, iid).db)
  {
  }

  /** Under the status rule, once an incident is resolved its service is Operational exactly when
      none of its incidents is still open; while one is, the service is left as it was. */
  lemma ResolvingRecomputesStatus(db: Database, caller: Actor, iid: Id)
    requires db.Valid() && NoOpenIncidentWhileOperational(db)
    requires UpdateIncidentStatus(db, caller, iid, "resolved").result.Ok?
    ensures var out := UpdateIncidentStatus(db, caller, iid, "resolved");
            var sid := db.incidents[iid].service;
            && (out.db.services[sid].status == Operational <==> !HasOpenIncident(out.db.incidents, sid))
            && (HasOpenIncident(out.db.incidents, sid) ==> out.db.services[sid] == db.services[sid])
  {
    var out := UpdateIncidentStatus(db, caller, iid, "resolved");
    var sid := db.incidents[iid].service;
    if HasOpenIncident(out.db.incidents, sid) {
      var i :| i in out.db.incidents && out.db.incidents[i].service == sid && out.db.incidents[i].status == Open;
      assert i != iid && db.incidents[i] == out.db.incidents[i];
    }
  }

  /** Under the status rule, once an incident is deleted its service is Operational exactly when
      none of its remaining incidents is open; while one is, the service is left as it was. */
  lemma DeletingRecomputesStatus(db: Database, caller: Actor, iid: Id)
    requires db.Valid() && NoOpenIncidentWhileOperational(db)
    requires DeleteIncident(db, caller, iid).result.Ok?
    ensures var out := DeleteIncident(db, caller, iid);
            var sid := db.incidents[iid].service;
            && iid !in out.db.incidents
            && (out.db.services[sid].status == Operational <==> !HasOpenIncident(out.db.incidents, sid))
            && (HasOpenIncident(out.db.incidents, sid) ==> out.db.services[sid] == db.services[sid])
  {
    var out := DeleteIncident(db, caller, iid);
    var sid := db.incidents[iid].service;
    if HasOpenIncident(out.db.incidents, sid) {
      var i :| i in out.db.incidents && out.db.incidents[i].service == sid && out.db.incidents[i].status == Open;
      assert db.incidents[i] == out.db.incidents[i];
    }
  }
}

=== FILE: organizations.dfy ===
/**
 * The organisation handlers: creating and deleting an organisation, and the
 * two per-user organisation listings with their service counts.
 */
module OrgRules {
  import opened Records
  import opened Selection
  import ServiceRules

  /** Whether some organisation is already called `name`. */
  predicate NameUsed(orgs: map<Id, Organization>, name: string) {
    exists o :: o in orgs && orgs[o].name == name
  }

  /** Organisation names are unique, as the schema's `unique` index demands. */
  ghost predicate UniqueOrgNames(orgs: map<Id, Organization>) {
    forall a, b :: a in orgs && b in orgs && orgs[a].name == orgs[b].name ==> a == b
  }

  /** `CreateOrganization`: an Admin founds an organisation with a fresh, non-empty name, administered by
      the caller and with no collaborators. */
  function CreateOrganization(db: Database, caller: Actor, name: string): (out: Step<Id>)
    requires db.Valid()
    ensures out.db.Valid()
    ensures out.result.Err? ==> out.db == db
    ensures caller.role != Admin ==> out.result == Err(Forbidden)
    ensures caller.role == Admin && name == "" ==> out.result == Err(MissingField)
    ensures caller.role == Admin && name != "" && NameUsed(db.orgs, name) ==> out.result == Err(DuplicateName)
    ensures out.result.Ok? <==> caller.role == Admin && name != "" && !NameUsed(db.orgs, name)
    ensures out.result.Ok? ==>
      && out.result.value == db.nextId && db.nextId !in db.orgs
      && out.db == db.(orgs := db.orgs[db.nextId := Organization(name, caller.id, [])], nextId := db.nextId + 1)
  {
    if caller.role != Admin then Step(db, Err(Forbidden))
    else if name == "" then Step(db, Err(MissingField))
    else if NameUsed(db.orgs, name) then Step(db, Err(DuplicateName))
    else
      var id := db.nextId;
      Step(db.(orgs := db.orgs[id := Organization(name, caller.id, [])], nextId := id + 1), Ok(id))
  }

  /** `DeleteOrganization`: the organisation's admin, who must also have role Admin, removes the
      organisation record and nothing else. */
  function DeleteOrganization(db: Database, caller: Actor, orgId: Id): (out: Step<()>)
    requires db.Valid()
    ensures out.db.Valid()
    ensures out.result.Err? ==> out.db == db
    ensures orgId !in db.orgs ==> out.result == Err(NotFound)
    ensures (orgId in db.orgs && (caller.role != Admin || db.orgs[orgId].admin != caller.id)) ==>
      out.result == Err(Forbidden)
    ensures out.result.Ok? <==> orgId in db.orgs && caller.role == Admin && db.orgs[orgId].admin == caller.id
    ensures out.result.Ok? ==>
      && out.db.orgs.Keys == db.orgs.Keys - {orgId}
      && (forall o :: o in out.db.orgs ==> out.db.orgs[o] == db.orgs[o])
      && out.db.services == db.services && out.db.incidents == db.incidents && out.db.requests == db.requests
      && out.db.nextId == db.nextId
  {
    if orgId !in db.orgs then Step(db, Err(NotFound))
    else if caller.role != Admin || db.orgs[orgId].admin != caller.id then Step(db, Err(Forbidden))
    else Step(db.(orgs := db.orgs - {orgId}), Ok(()))
  }

  /** The services that organisation `orgId` owns. */
  ghost function OwnedServices(db: Database, orgId: Id): set<Id> {
    set s | s in db.services && db.services[s].org == orgId
  }

  /** `Service.countDocuments({ organizationId })`. */
  function ServiceCount(db: Database, orgId: Id): (n: nat)
    requires ServicesValid(db.services, db.nextId)
    ensures n == |OwnedServices(db, orgId)|
  {
    var keep := (s: Service) => s.org == orgId;
    assert KeysWhere(db.services, keep, db.nextId) == OwnedServices(db, orgId);
    CountWhere(db.services, keep, db.nextId)
  }

  /** One entry of `getAllOrganizationsForUser`. */
  datatype OrgSummary = OrgSummary(id: Id, name: string, isAdmin: bool, isCollaborator: bool, serviceCount: nat)

  function Summarize(db: Database, caller: Actor, oid: Id): (e: OrgSummary)
    requires ServicesValid(db.services, db.nextId) && oid in db.orgs
    ensures e.id == oid && e.name == db.orgs[oid].name
    ensures e.isAdmin <==> db.orgs[oid].admin == caller.id
    ensures e.isCollaborator <==> caller.id in db.orgs[oid].collaborators
    ensures e.serviceCount == |OwnedServices(db, oid)|
  {
    var o := db.orgs[oid];
    OrgSummary(oid, o.name, IsAdminOf(o, caller.id), IsCollaboratorOf(o, caller.id), ServiceCount(db, oid))
  }

  /** The summaries of the organisations listed in `entries`, in the same order. */
  function SummariesOf(db: Database, caller: Actor, entries: seq<(Id, Organization)>): (r: seq<OrgSummary>)
    requires ServicesValid(db.services, db.nextId)
    requires forall k :: 0 <= k < |entries| ==> entries[k].0 in db.orgs
    ensures |r| == |entries|
    ensures forall k :: 0 <= k < |r| ==> r[k] == Summarize(db, caller, entries[k].0)
  {
    if entries == [] then [] else [Summarize(db, caller, entries[0].0)] + SummariesOf(db, caller, entries[1..])
  }

  /** Summarising every organisation, listed in increasing identifier order, gives one summary per
      organisation in the same order. */
  lemma SummariesOfAll(db: Database, caller: Actor, all: seq<(Id, Organization)>)
    requires ServicesValid(db.services, db.nextId)
    requires forall e :: e in all ==> e.0 in db.orgs
    requires forall oid :: oid in db.orgs ==> (oid, db.orgs[oid]) in all
    requires forall i, j :: 0 <= i < j < |all| ==> all[i].0 < all[j].0
    ensures forall k :: 0 <= k < |all| ==> all[k].0 in db.orgs
    ensures var r := SummariesOf(db, caller, all);
            && (forall e :: e in r ==> e.id in db.orgs && e == Summarize(db, caller, e.id))
            && (forall oid :: oid in db.orgs ==> Summarize(db, caller, oid) in r)
            && (forall i, j :: 0 <= i < j < |r| ==> r[i].id < r[j].id)
  {
    assert forall k :: 0 <= k < |all| ==> all[k] in all;
    var r := SummariesOf(db, caller, all);
    forall e | e in r ensures e.id in db.orgs && e == Summarize(db, caller, e.id) {
      SummaryOfListed(db, caller, all, e);
    }
    forall oid | oid in db.orgs ensures Summarize(db, caller, oid) in r {
      var k :| 0 <= k < |all| && all[k] == (oid, db.orgs[oid]);
      SummaryListed(db, caller, all, k);
    }
  }

  /** Every entry of a summary list is the summary of its own organisation. */
  lemma SummaryOfListed(db: Database, caller: Actor, entries: seq<(Id, Organization)>, e: OrgSummary)
    requires ServicesValid(db.services, db.nextId)
    requires forall k :: 0 <= k < |entries| ==> entries[k].0 in db.orgs
    requires e in SummariesOf(db, caller, entries)
    ensures e.id in db.orgs && e == Summarize(db, caller, e.id)
  {
    var r := SummariesOf(db, caller, entries);
    var k :| 0 <= k < |r| && r[k] == e;
    assert e == Summarize(db, caller, entries[k].0);
  }

  /** The organisation at position `k` of the input has its summary in the list. */
  lemma SummaryListed(db: Database, caller: Actor, entries: seq<(Id, Organization)>, k: nat)
    requires ServicesValid(db.services, db.nextId)
    requires forall k :: 0 <= k < |entries| ==> entries[k].0 in db.orgs
    requires k < |entries|
    ensures Summarize(db, caller, entries[k].0) in SummariesOf(db, caller, entries)
  {
    assert SummariesOf(db, caller, entries)[k] == Summarize(db, caller, entries[k].0);
  }

  /** `getAllOrganizationsForUser`: every organisation, oldest first, with the caller's relationship to it
      and the number of services it owns. */
  function OrganizationsForUser(db: Database, caller: Actor): (r: seq<OrgSummary>)
    requires db.Valid()
    ensures forall e :: e in r ==>
      && e.id in db.orgs && e.name == db.orgs[e.id].name
      && (e.isAdmin <==> db.orgs[e.id].admin == caller.id)
      && (e.isCollaborator <==> caller.id in db.orgs[e.id].collaborators)
      && e.serviceCount == |OwnedServices(db, e.id)|
    ensures forall oid :: oid in db.orgs ==> Summarize(db, caller, oid) in r
    ensures forall i, j :: 0 <= i < j < |r| ==> r[i].id < r[j].id
  {
    var all := Select(db.orgs, (o: Organization) => true, db.nextId);
    SummariesOfAll(db, caller, all);
    SummariesOf(db, caller, all)
  }

  /** One entry of `getMyOrganizationsAsAdmin`. */
  datatype AdminOrgSummary = AdminOrgSummary(id: Id, name: string, serviceCount: nat)

  function AdminSummary(db: Database, oid: Id): (e: AdminOrgSummary)
    requires ServicesValid(db.services, db.nextId) && oid in db.orgs
    ensures e.id == oid && e.name == db.orgs[oid].name && e.serviceCount == |OwnedServices(db, oid)|
  {
    AdminOrgSummary(oid, db.orgs[oid].name, ServiceCount(db, oid))
  }

  /** The admin summaries of the organisations listed in `entries`, in the same order. */
  function AdminSummariesOf(db: Database, entries: seq<(Id, Organization)>): (r: seq<AdminOrgSummary>)
    requires ServicesValid(db.services, db.nextId)
    requires forall k :: 0 <= k < |entries| ==> entries[k].0 in db.orgs
    ensures |r| == |entries|
    ensures forall k :: 0 <= k < |r| ==> r[k] == AdminSummary(db, entries[k].0)
  {
    if entries == [] then [] else [AdminSummary(db, entries[0].0)] + AdminSummariesOf(db, entries[1..])
  }

  /** Summarising the organisations of `admin`, listed in increasing identifier order, gives one summary
      per such organisation in the same order. */
  lemma AdminSummariesOfMine(db: Database, admin: Id, mine: seq<(Id, Organization)>)
    requires ServicesValid(db.services, db.nextId)
    requires forall e :: e in mine ==> e.0 in db.orgs && db.orgs[e.0] == e.1 && e.1.admin == admin
    requires forall oid :: oid in db.orgs && db.orgs[oid].admin == admin ==> (oid, db.orgs[oid]) in mine
    requires forall i, j :: 0 <= i < j < |mine| ==> mine[i].0 < mine[j].0
    ensures forall k :: 0 <= k < |mine| ==> mine[k].0 in db.orgs
    ensures var r := AdminSummariesOf(db, mine);
            && (forall e :: e in r ==> e.id in db.orgs && db.orgs[e.id].admin == admin && e == AdminSummary(db, e.id))
            && (forall oid :: oid in db.orgs && db.orgs[oid].admin == admin ==> AdminSummary(db, oid) in r)
            && (forall i, j :: 0 <= i < j < |r| ==> r[i].id < r[j].id)
  {
    assert forall k :: 0 <= k < |mine| ==> mine[k] in mine;
    var r := AdminSummariesOf(db, mine);
    forall e | e in r ensures e.id in db.orgs && db.orgs[e.id].admin == admin && e == AdminSummary(db, e.id) {
      var k := AdminSummaryOfListed(db, mine, e);
      assert mine[k] in mine;
    }
    forall oid | oid in db.orgs && db.orgs[oid].admin == admin ensures AdminSummary(db, oid) in r {
      var k :| 0 <= k < |mine| && mine[k] == (oid, db.orgs[oid]);
      AdminSummaryListed(db, mine, k);
    }
  }

  /** Every entry of an admin summary list is the summary of the organisation at its own position. */
  lemma AdminSummaryOfListed(db: Database, entries: seq<(Id, Organization)>, e: AdminOrgSummary)
      returns (k: nat)
    requires ServicesValid(db.services, db.nextId)
    requires forall k :: 0 <= k < |entries| ==> entries[k].0 in db.orgs
    requires e in AdminSummariesOf(db, entries)
    ensures k < |entries| && e.id == entries[k].0 && e == AdminSummary(db, e.id)
  {
    var r := AdminSummariesOf(db, entries);
    k :| 0 <= k < |r| && r[k] == e;
    assert e == AdminSummary(db, entries[k].0);
  }

  /** The organisation at position `k` of the input has its admin summary in the list. */
  lemma AdminSummaryListed(db: Database, entries: seq<(Id, Organization)>, k: nat)
    requires ServicesValid(db.services, db.nextId)
    requires forall k :: 0 <= k < |entries| ==> entries[k].0 in db.orgs
    requires k < |entries|
    ensures AdminSummary(db, entries[k].0) in AdminSummariesOf(db, entries)
  {
    assert AdminSummariesOf(db, entries)[k] == AdminSummary(db, entries[k].0);
  }

  /** The organisations that `admin` administers, oldest first, each with its service count. */
  function AdministeredBy(db: Database, admin: Id): (r: seq<AdminOrgSummary>)
    requires db.Valid()
    ensures forall e :: e in r ==>
      && e.id in db.orgs && db.orgs[e.id].admin == admin && e.name == db.orgs[e.id].name
      && e.serviceCount == |OwnedServices(db, e.id)|
    ensures forall oid :: oid in db.orgs && db.orgs[oid].admin == admin ==> AdminSummary(db, oid) in r
    ensures forall i, j :: 0 <= i < j < |r| ==> r[i].id < r[j].id
  {
    var mine := Select(db.orgs, (o: Organization) => o.admin == admin, db.nextId);
    AdminSummariesOfMine(db, admin, mine);
    AdminSummariesOf(db, mine)
  }

  /** `getMyOrganizationsAsAdmin`: for a caller whose role is Admin, the organisations they administer. */
  function MyOrganizationsAsAdmin(db: Database, caller: Actor): (r: Result<seq<AdminOrgSummary>>)
    requires db.Valid()
    ensures r.Err? <==> caller.role != Admin
    ensures r.Err? ==> r.error == Forbidden
    ensures r.Ok? ==> r.value == AdministeredBy(db, caller.id)
  {
    if caller.role != Admin then Err(Forbidden) else Ok(AdministeredBy(db, caller.id))
  }

  // ---- Properties across calls ----

  /** Creating an organisation keeps the names unique. */
  lemma CreateKeepsNamesUnique(db: Database, caller: Actor, name: string)
    requires db.Valid() && UniqueOrgNames(db.orgs)
    ensures UniqueOrgNames(CreateOrganization(db, caller, name).db.orgs)
  {
    var out := CreateOrganization(db, caller, name);
    if out.result.Ok? {
      forall a, b | a in out.db.orgs && b in out.db.orgs && out.db.orgs[a].name == out.db.orgs[b].name
        ensures a == b
      {
        if a != b && (a == db.nextId || b == db.nextId) {
          assert false;
        }
      }
    }
  }

  /** A fresh organisation appears in its founder's listing as administered, with no service. */
  lemma FounderSeesNewOrganization(db: Database, caller: Actor, name: string)
    requires db.Valid()
    requires CreateOrganization(db, caller, name).result.Ok?
    ensures var out := CreateOrganization(db, caller, name);
            OrgSummary(out.result.value, name, true, false, 0) in OrganizationsForUser(out.db, caller)
  {
    var out := CreateOrganization(db, caller, name);
    var id := out.result.value;
    assert OwnedServices(out.db, id) == {} by {
      forall s | s in out.db.services ensures out.db.services[s].org != id {
        assert out.db.services[s].org < db.nextId;
      }
    }
    assert id in out.db.orgs && out.db.orgs[id] == Organization(name, caller.id, []);
    assert Summarize(out.db, caller, id) == OrgSummary(id, name, true, false, 0);
  }

  /** Deleting an organisation does not delete its services: they remain, changing the status of one
      afterwards fails with a server error, and no caller may delete one. */
  lemma DeletedOrganizationStrandsServices(db: Database, caller: Actor, orgId: Id, sid: Id, status: string)
    requires db.Valid()
    requires DeleteOrganization(db, caller, orgId).result.Ok?
    requires sid in db.services && db.services[sid].org == orgId && status in ValidStatuses
    ensures var after := DeleteOrganization(db, caller, orgId).db;
            && sid in after.services
            && ServiceRules.UpdateServiceStatus(after, caller, sid, status) == Step(after, Err(ServerError))
            && forall anyone: Actor :: ServiceRules.DeleteService(after, anyone, sid) == Step(after, Err(Forbidden))
  {
  }
}

=== FILE: records.dfy ===
/**
 * The five record kinds of the status-page backend, the in-memory database
 * that holds them, the access predicates every handler evaluates and the
 * result type every handler returns.
 */
module Records {

  /** Document identifiers. The store hands them out from a counter, so a
      smaller identifier always belongs to an older record. */
  type Id = nat

  datatype Option<T> = None | Some(value: T)

  /** The error answers of the handlers, by HTTP status. */
  datatype Error =
    | NotFound            // 404: the addressed record does not exist
    | Forbidden           // 403: the caller lacks the role or the relationship
    | InvalidStatus       // 400: a status value outside the accepted list
    | MissingField        // 400: a required text field is missing or empty
    | DuplicateName       // 400: the name is already used
    | AlreadyAdmin        // 400: the organisation's admin asks to collaborate
    | AlreadyCollaborator // 400: the caller already collaborates
    | RequestPending      // 400: the caller already has a Pending request
    | ServerError         // 500: the handler threw (a dangling reference, a schema validation failure)

  datatype Result<T> = Ok(value: T) | Err(error: Error)

  datatype Role = Admin | User

  /** The authenticated caller, as the authentication middleware supplies it. */
  datatype Actor = Actor(id: Id, role: Role)

  datatype ServiceStatus = Operational | DegradedPerformance | PartialOutage | MajorOutage

  datatype IncidentStatus = Open | Resolved

  datatype RequestStatus = Pending | Accepted | Rejected

  datatype Organization = Organization(name: string, admin: Id, collaborators: seq<Id>)

  datatype Service = Service(name: string, status: ServiceStatus, org: Id)

  datatype Incident = Incident(service: Id, name: string, status: IncidentStatus, issueMessage: string)

  datatype CollabRequest = CollabRequest(org: Id, user: Id, status: RequestStatus)

  /** The accepted spellings of a service status, in the order the service controller lists them. */
  const ValidStatuses: seq<string> := ["Operational", "Degraded Performance", "Partial Outage", "Major Outage"]

  function StatusName(s: ServiceStatus): (name: string)
    ensures name in ValidStatuses
  {
    match s
    case Operational => "Operational"
    case DegradedPerformance => "Degraded Performance"
    case PartialOutage => "Partial Outage"
    case MajorOutage => "Major Outage"
  }

  /** Reads a status from a request body; `None` for anything outside `ValidStatuses`. */
  function ParseServiceStatus(s: string): (r: Option<ServiceStatus>)
    ensures r.Some? <==> s in ValidStatuses
    ensures r.Some? ==> StatusName(r.value) == s
  {
    if s == "Operational" then Some(Operational)
    else if s == "Degraded Performance" then Some(DegradedPerformance)
    else if s == "Partial Outage" then Some(PartialOutage)
    else if s == "Major Outage" then Some(MajorOutage)
    else None
  }

  lemma StatusNameParses(s: ServiceStatus)
    ensures ParseServiceStatus(StatusName(s)) == Some(s)
  {
  }

  /** Reads an admin's answer to a collaboration request: only "Accepted" and "Rejected" are answers. */
  function ParseDecision(s: string): (r: Option<RequestStatus>)
    ensures r.Some? <==> s == "Accepted" || s == "Rejected"
    ensures r.Some? ==> r.value != Pending
    ensures r == Some(Accepted) <==> s == "Accepted"
  {
    if s == "Accepted" then Some(Accepted)
    else if s == "Rejected" then Some(Rejected)
    else None
  }

  predicate IsAdminOf(o: Organization, user: Id) {
    o.admin == user
  }

  predicate IsCollaboratorOf(o: Organization, user: Id) {
    user in o.collaborators
  }

  /** The write access the service and incident handlers demand: admin or collaborator. */
  predicate MayEdit(o: Organization, user: Id) {
    IsAdminOf(o, user) || IsCollaboratorOf(o, user)
  }

  predicate NoDuplicates(xs: seq<Id>) {
    forall i, j :: 0 <= i < j < |xs| ==> xs[i] != xs[j]
  }

  /** Whether `sid` has an incident whose status is open. */
  predicate HasOpenIncident(incidents: map<Id, Incident>, sid: Id) {
    exists i :: i in incidents && incidents[i].service == sid && incidents[i].status == Open
  }

  /** The whole content of the store. */
  datatype Database = Database(
    orgs: map<Id, Organization>,
    services: map<Id, Service>,
    incidents: map<Id, Incident>,
    requests: map<Id, CollabRequest>,
    nextId: Id)
  {
    /** What every reachable store satisfies: identifiers (and the references
        stored in records) were handed out by the counter, an organisation lists
        each collaborator once and never its admin, and no request of an
        existing organisation comes from that organisation's admin. */
    ghost predicate Valid() {
      && OrgsValid(orgs, nextId)
      && ServicesValid(services, nextId)
      && IncidentsValid(incidents, nextId)
      && RequestsValid(requests, orgs, nextId)
    }
  }

  ghost predicate OrgsValid(orgs: map<Id, Organization>, nextId: Id) {
    forall id :: id in orgs ==>
      id < nextId && NoDuplicates(orgs[id].collaborators) && orgs[id].admin !in orgs[id].collaborators
  }

  ghost predicate ServicesValid(services: map<Id, Service>, nextId: Id) {
    forall id :: id in services ==> id < nextId && services[id].org < nextId
  }

  ghost predicate IncidentsValid(incidents: map<Id, Incident>, nextId: Id) {
    forall id :: id in incidents ==> id < nextId && incidents[id].service < nextId
  }

  ghost predicate RequestsValid(requests: map<Id, CollabRequest>, orgs: map<Id, Organization>, nextId: Id) {
    forall id :: id in requests ==>
      id < nextId && requests[id].org < nextId
      && (requests[id].org in orgs ==> requests[id].user != orgs[requests[id].org].admin)
  }

  const EmptyDatabase := Database(map[], map[], map[], map[], 0)

  /** The status rule the handlers keep: an existing service with an open incident is never Operational. */
  ghost predicate NoOpenIncidentWhileOperational(db: Database) {
    forall i :: i in db.incidents && db.incidents[i].status == Open && db.incidents[i].service in db.services
      ==> db.services[db.incidents[i].service].status != Operational
  }

  /** A handler's effect: the database afterwards and its answer. */
  datatype Step<T> = Step(db: Database, result: Result<T>)
}

=== FILE: scenarios.dfy ===
/**
 * Sequences of handler calls and what they add up to: an outage set by hand
 * and then cleared, and two incidents filed one after the other.
 */
module Scenarios {
  import opened Records
  import opened Snapshot
  import ServiceRules
  import IncidentRules

  /** Operational, then an outage by hand, then Operational again: exactly one incident is filed, and it
      ends resolved, so the service is left with no open incident. */
  lemma OutageThenRecovery(db: Database, caller: Actor, sid: Id, outage: string)
    requires db.Valid() && NoOpenIncidentWhileOperational(db)
    requires sid in db.services && db.services[sid].status == Operational
    requires db.services[sid].org in db.orgs && MayEdit(db.orgs[db.services[sid].org], caller.id)
    requires outage in ValidStatuses && outage != "Operational"
    ensures var down := ServiceRules.UpdateServiceStatus(db, caller, sid, outage);
            var up := ServiceRules.UpdateServiceStatus(down.db, caller, sid, "Operational");
            && down.result.Ok? && StatusName(down.db.services[sid].status) == outage
            && down.db.incidents == db.incidents[db.nextId := ServiceRules.AutoIncident(sid, outage)]
            && up.result.Ok? && up.db.services[sid].status == Operational
            && up.db.incidents.Keys == db.incidents.Keys + {db.nextId}
            && up.db.incidents[db.nextId] == ServiceRules.AutoIncident(sid, outage).(status := Resolved)
            && OpenIncidentsOf(up.db, sid) == []
  {
    ServiceRules.LeavingOperationalFilesOneIncident(db, caller, sid, outage);
    var down := ServiceRules.UpdateServiceStatus(db, caller, sid, outage);
    ServiceRules.UpdateServiceStatusKeepsStatusRule(db, caller, sid, outage);
    assert down.db.orgs == db.orgs && down.db.services[sid].org == db.services[sid].org;
  }

  /** Two incidents filed on the same service one after the other: both are open, each with its own new
      identifier, and the service is left in Degraded Performance. */
  lemma TwoIncidents(db: Database, caller: Actor, sid: Id, name1: string, message1: string,
                     name2: string, message2: string)
    requires db.Valid()
    requires sid in db.services
    requires db.services[sid].org in db.orgs && MayEdit(db.orgs[db.services[sid].org], caller.id)
    requires name1 != "" && message1 != "" && name2 != "" && message2 != ""
    ensures var first := IncidentRules.CreateIncident(db, caller, sid, name1, message1);
            var second := IncidentRules.CreateIncident(first.db, caller, sid, name2, message2);
            && first.result == Ok(db.nextId) && second.result == Ok(db.nextId + 1)
            && second.db.incidents == db.incidents[db.nextId := Incident(sid, name1, Open, message1)]
                                                  [db.nextId + 1 := Incident(sid, name2, Open, message2)]
            && second.db.services[sid].status == DegradedPerformance
            && (db.nextId, Incident(sid, name1, Open, message1)) in OpenIncidentsOf(second.db, sid)
            && (db.nextId + 1, Incident(sid, name2, Open, message2)) in OpenIncidentsOf(second.db, sid)
  {
    var first := IncidentRules.CreateIncident(db, caller, sid, name1, message1);
    assert first.db.orgs == db.orgs && first.db.services[sid].org == db.services[sid].org;
    var second := IncidentRules.CreateIncident(first.db, caller, sid, name2, message2);
    assert second.db.incidents[db.nextId] == Incident(sid, name1, Open, message1);
  }
}

=== FILE: selection.dfy ===
/**
 * Listing records the way the handlers' `find` queries do: every record of a
 * collection that passes a filter, in creation order (oldest first) or, for
 * a query sorted by creation time descending, newest first.
 */
module Selection {
  import opened Records

  /** The entries of `m` below `bound` whose value passes `keep`, oldest first. */
  function Select<V(==)>(m: map<Id, V>, keep: V -> bool, bound: nat): (r: seq<(Id, V)>)
    ensures forall e :: e in r ==> e.0 in m && m[e.0] == e.1 && e.0 < bound && keep(e.1)
    ensures forall k :: k in m && k < bound && keep(m[k]) ==> (k, m[k]) in r
    ensures forall i, j :: 0 <= i < j < |r| ==> r[i].0 < r[j].0
  {
    if bound == 0 then []
    else
      var rest := Select(m, keep, bound - 1);
      if bound - 1 in m && keep(m[bound - 1]) then rest + [(bound - 1, m[bound - 1])] else rest
  }

  /** The same entries as `Select`, newest first. */
  function SelectNewestFirst<V(==)>(m: map<Id, V>, keep: V -> bool, bound: nat): (r: seq<(Id, V)>)
    ensures forall e :: e in r ==> e.0 in m && m[e.0] == e.1 && e.0 < bound && keep(e.1)
    ensures forall k :: k in m && k < bound && keep(m[k]) ==> (k, m[k]) in r
    ensures forall i, j :: 0 <= i < j < |r| ==> r[i].0 > r[j].0
  {
    if bound == 0 then []
    else
      var rest := SelectNewestFirst(m, keep, bound - 1);
      if bound - 1 in m && keep(m[bound - 1]) then [(bound - 1, m[bound - 1])] + rest else rest
  }

  /** The keys `Select` is about, as a set. */
  ghost function KeysWhere<V>(m: map<Id, V>, keep: V -> bool, bound: nat): set<Id> {
    set k | k in m && k < bound && keep(m[k])
  }

  /** Going one key further adds that key to `KeysWhere` exactly when it is selected. */
  lemma KeysWhereStep<V>(m: map<Id, V>, keep: V -> bool, bound: nat)
    ensures |KeysWhere(m, keep, bound + 1)|
         == |KeysWhere(m, keep, bound)| + (if bound in m && keep(m[bound]) then 1 else 0)
  {
    var below := KeysWhere(m, keep, bound);
    assert bound !in below;
    if bound in m && keep(m[bound]) {
      assert KeysWhere(m, keep, bound + 1) == below + {bound};
    } else {
      assert KeysWhere(m, keep, bound + 1) == below;
    }
  }

  /** The number of entries below `bound` whose value passes `keep`: a count query. */
  function CountWhere<V>(m: map<Id, V>, keep: V -> bool, bound: nat): (n: nat)
    ensures n == |KeysWhere(m, keep, bound)|
  {
    if bound == 0 then 0
    else
      KeysWhereStep(m, keep, bound - 1);
      CountWhere(m, keep, bound - 1) + (if bound - 1 in m && keep(m[bound - 1]) then 1 else 0)
  }
}

=== FILE: services.dfy ===
/**
 * The service handlers: creating a service, changing its status by hand
 * (with the incident side effects) and deleting it, plus the per-organisation
 * service listing.
 */
module ServiceRules {
  import opened Records
  import opened Snapshot

  /** Whether organisation `orgId` already has a service called `name`. */
  predicate NameTakenInOrg(services: map<Id, Service>, orgId: Id, name: string) {
    exists s :: s in services && services[s].org == orgId && services[s].name == name
  }

  /** `createService`: an Admin adds a service, in any of the four statuses, to an organisation they administer. */
  function CreateService(db: Database, caller: Actor, name: string, status: string, orgId: Id): (out: Step<Id>)
    requires db.Valid()
    ensures out.db.Valid()
    ensures out.result.Err? ==> out.db == db
    ensures caller.role != Admin ==> out.result == Err(Forbidden)
    ensures caller.role == Admin && ParseServiceStatus(status).None? ==> out.result == Err(InvalidStatus)
    ensures caller.role == Admin && ParseServiceStatus(status).Some? && orgId !in db.orgs ==>
      out.result == Err(NotFound)
    ensures (caller.role == Admin && ParseServiceStatus(status).Some? && orgId in db.orgs
             && db.orgs[orgId].admin != caller.id) ==> out.result == Err(Forbidden)
    ensures (caller.role == Admin && ParseServiceStatus(status).Some? && orgId in db.orgs
             && db.orgs[orgId].admin == caller.id && NameTakenInOrg(db.services, orgId, name)) ==>
      out.result == Err(DuplicateName)
    ensures (caller.role == Admin && ParseServiceStatus(status).Some? && orgId in db.orgs
             && db.orgs[orgId].admin == caller.id && !NameTakenInOrg(db.services, orgId, name) && name == "") ==>
      out.result == Err(ServerError)
    ensures out.result.Ok? <==>
      && caller.role == Admin && ParseServiceStatus(status).Some?
      && orgId in db.orgs && db.orgs[orgId].admin == caller.id
      && !NameTakenInOrg(db.services, orgId, name) && name != ""
    ensures out.result.Ok? ==>
      && out.result.value == db.nextId && db.nextId !in db.services
      && out.db == db.(services := db.services[db.nextId := Service(name, ParseServiceStatus(status).value, orgId)],
                       nextId := db.nextId + 1)
  {
    if caller.role != Admin then Step(db, Err(Forbidden))
    else match ParseServiceStatus(status)
      case None => Step(db, Err(InvalidStatus))
      case Some(st) =>
        if orgId !in db.orgs then Step(db, Err(NotFound))
        else if db.orgs[orgId].admin != caller.id then Step(db, Err(Forbidden))
        else if NameTakenInOrg(db.services, orgId, name) then Step(db, Err(DuplicateName))
        // the schema requires a name, so creating one without it throws
        else if name == "" then Step(db, Err(ServerError))
        else
          var id := db.nextId;
          Step(db.(services := db.services[id := Service(name, st, orgId)], nextId := id + 1), Ok(id))
  }

  const AutoNamePrefix: string := "Auto Incident - "
  const AutoMessagePrefix: string := "Auto-generated incident due to status change from Operational to "

  /** The incident filed when a service leaves Operational by hand. */
  function AutoIncident(sid: Id, status: string): Incident {
    Incident(sid, AutoNamePrefix + status, Open,
             AutoMessagePrefix + status)
  }

  /** The bulk update that resolves every open incident of service `sid`. */
  function ResolveOpenOf(incidents: map<Id, Incident>, sid: Id): (r: map<Id, Incident>)
    ensures r.Keys == incidents.Keys
    ensures forall i :: i in incidents ==>
      r[i] == if incidents[i].service == sid then incidents[i].(status := Resolved) else incidents[i]
    ensures !HasOpenIncident(r, sid)
  {
    map i | i in incidents ::
      if incidents[i].service == sid && incidents[i].status == Open
      then incidents[i].(status := Resolved) else incidents[i]
  }

  /** What a permitted manual status change writes: the service's new status, then the incident side
      effect, which depends on the old status and on whether an incident of the service is open. */
  function ChangeStatus(db: Database, sid: Id, st: ServiceStatus): (out: Database)
    requires db.Valid() && sid in db.services
    ensures out.Valid()
    ensures out.services == db.services[sid := db.services[sid].(status := st)]
    ensures out.orgs == db.orgs && out.requests == db.requests
    // back to Operational: every incident of the service is resolved, no other incident changes
    ensures st == Operational ==>
      && out.incidents.Keys == db.incidents.Keys && out.nextId == db.nextId
      && forall i :: i in db.incidents ==>
           out.incidents[i]
           == if db.incidents[i].service == sid then db.incidents[i].(status := Resolved) else db.incidents[i]
    // leaving Operational with no open incident: exactly one new open incident
    ensures (st != Operational && db.services[sid].status == Operational && !HasOpenIncident(db.incidents, sid)) ==>
      && db.nextId !in db.incidents
      && out.incidents == db.incidents[db.nextId := AutoIncident(sid, StatusName(st))]
      && out.nextId == db.nextId + 1
    // any other change: the incidents stay as they are
    ensures (st != Operational && (db.services[sid].status != Operational || HasOpenIncident(db.incidents, sid))) ==>
      out.incidents == db.incidents && out.nextId == db.nextId
  {
    var db1 := db.(services := db.services[sid := db.services[sid].(status := st)]);
    if st == Operational then db1.(incidents := ResolveOpenOf(db.incidents, sid))
    else if db.services[sid].status == Operational && !HasOpenIncident(db.incidents, sid) then
      db1.(incidents := db.incidents[db.nextId := AutoIncident(sid, StatusName(st))], nextId := db.nextId + 1)
    else db1
  }

  /** `updateServiceStatus`: an admin or collaborator sets a service's status by hand. */
  function UpdateServiceStatus(db: Database, caller: Actor, sid: Id, status: string): (out: Step<Service>)
    requires db.Valid()
    ensures out.db.Valid()
    ensures out.result.Err? ==> out.db == db
    ensures ParseServiceStatus(status).None? ==> out.result == Err(InvalidStatus)
    ensures ParseServiceStatus(status).Some? && sid !in db.services ==> out.result == Err(NotFound)
    ensures ParseServiceStatus(status).Some? && sid in db.services && db.services[sid].org !in db.orgs ==>
      out.result == Err(ServerError)
    ensures (ParseServiceStatus(status).Some? && sid in db.services && db.services[sid].org in db.orgs
             && !MayEdit(db.orgs[db.services[sid].org], caller.id)) ==> out.result == Err(Forbidden)
    ensures out.result.Ok? <==>
      && ParseServiceStatus(status).Some? && sid in db.services && db.services[sid].org in db.orgs
      && MayEdit(db.orgs[db.services[sid].org], caller.id)
    ensures out.result.Ok? ==>
      && StatusName(out.result.value.status) == status
      && out.result.value == db.services[sid].(status := out.result.value.status)
      && out.db == ChangeStatus(db, sid, out.result.value.status)
  {
    match ParseServiceStatus(status)
    case None => Step(db, Err(InvalidStatus))
    case Some(st) =>
      if sid !in db.services then Step(db, Err(NotFound))
      else
        var service := db.services[sid];
        // the organisation lookup yields null and dereferencing it throws
        if service.org !in db.orgs then Step(db, Err(ServerError))
        else if !MayEdit(db.orgs[service.org], caller.id) then Step(db, Err(Forbidden))
        else Step(ChangeStatus(db, sid, st), Ok(service.(status := st)))
  }

  /** `deleteService`: the organisation's admin removes a service; its incidents stay in the store. */
  function DeleteService(db: Database, caller: Actor, sid: Id): (out: Step<()>)
    requires db.Valid()
    ensures out.db.Valid()
    ensures out.result.Err? ==> out.db == db
    ensures sid !in db.services ==> out.result == Err(NotFound)
    ensures (sid in db.services
             && (db.services[sid].org !in db.orgs || db.orgs[db.services[sid].org].admin != caller.id)) ==>
      out.result == Err(Forbidden)
    ensures out.result.Ok? <==>
      sid in db.services && db.services[sid].org in db.orgs && db.orgs[db.services[sid].org].admin == caller.id
    ensures out.result.Ok? ==>
      && out.db.services.Keys == db.services.Keys - {sid}
      && (forall s :: s in out.db.services ==> out.db.services[s] == db.services[s])
      && out.db.incidents == db.incidents && out.db.orgs == db.orgs && out.db.requests == db.requests
      && out.db.nextId == db.nextId
  {
    if sid !in db.services then Step(db, Err(NotFound))
    else
      var org := db.services[sid].org;
      if org !in db.orgs || db.orgs[org].admin != caller.id then Step(db, Err(Forbidden))
      else Step(db.(services := db.services - {sid}), Ok(()))
  }

  /** The answer of `getServicesByOrgId`. */
  datatype OrgServices = OrgServices(isCollaborator: bool, services: seq<ServiceView>)

  /** `getServicesByOrgId`: any caller reads an organisation's snapshot, told whether they collaborate on it. */
  function ServicesByOrg(db: Database, caller: Actor, orgId: Id): (r: Result<OrgServices>)
    requires db.Valid()
    ensures r.Err? <==> orgId !in db.orgs
    ensures r.Err? ==> r.error == NotFound
    ensures r.Ok? ==>
      && (r.value.isCollaborator <==> caller.id in db.orgs[orgId].collaborators)
      && r.value.services == ServicesWithIncidents(db, orgId)
  {
    if orgId !in db.orgs then Err(NotFound)
    else Ok(OrgServices(IsCollaboratorOf(db.orgs[orgId], caller.id), ServicesWithIncidents(db, orgId)))
  }

  // ---- The status rule ----

  /** Creating a service keeps the status rule: nothing refers to the new identifier yet. */
  lemma CreateServiceKeepsStatusRule(db: Database, caller: Actor, name: string, status: string, orgId: Id)
    requires db.Valid() && NoOpenIncidentWhileOperational(db)
    ensures NoOpenIncidentWhileOperational(CreateService(db, caller, name, status, orgId).db)
  {
    var out := CreateService(db, caller, name, status, orgId);
    if out.result.Ok? {
      forall i | i in out.db.incidents && out.db.incidents[i].status == Open
                 && out.db.incidents[i].service in out.db.services
        ensures out.db.services[out.db.incidents[i].service].status != Operational
      {
        assert out.db.incidents[i].service < db.nextId;
      }
    }
  }

  /** A manual status change keeps the status rule. */
  lemma UpdateServiceStatusKeepsStatusRule(db: Database, caller: Actor, sid: Id, status: string)
    requires db.Valid() && NoOpenIncidentWhileOperational(db)
    ensures NoOpenIncidentWhileOperational(UpdateServiceStatus(db, caller, sid, status).db)
  {
  }

  /** Deleting a service keeps the status rule. */
  lemma DeleteServiceKeepsStatusRule(db: Database, caller: Actor, sid: Id)
    requires db.Valid() && NoOpenIncidentWhileOperational(db)
    ensures NoOpenIncidentWhileOperational(DeleteService(db, caller, sid).db)
  {
  }

  /** Under the status rule an Operational service has no open incident, so leaving Operational by hand
      always files exactly one incident. */
  lemma LeavingOperationalFilesOneIncident(db: Database, caller: Actor, sid: Id, status: string)
    requires db.Valid() && NoOpenIncidentWhileOperational(db)
    requires sid in db.services && db.services[sid].status == Operational && status != "Operational"
    requires UpdateServiceStatus(db, caller, sid, status).result.Ok?
    ensures UpdateServiceStatus(db, caller, sid, status).db.incidents
         == db.incidents[db.nextId := AutoIncident(sid, status)]
  {
    assert !HasOpenIncident(db.incidents, sid);
  }

  /** The converse of the status rule does not hold: a service may be created in an outage
      without any incident. */
  lemma OutageWithoutIncident()
    ensures var db := EmptyDatabase.(orgs := map[0 := Organization("acme", 7, [])], nextId := 1);
            var out := CreateService(db, Actor(7, Admin), "api", "Major Outage", 0);
            && out.result == Ok(1)
            && out.db.services[1].status == MajorOutage
            && !HasOpenIncident(out.db.incidents, 1)
  {
  }
}

=== FILE: snapshot.dfy ===
/**
 * The per-organisation snapshot that the service and incident handlers
 * recompute after every change and broadcast to the organisation's room
 * (`getServicesWithIncidents`, which the service controller and the
 * incident controller each define, identically).
 */
module Snapshot {
  import opened Records
  import opened Selection

  /** One service of the snapshot, with the incidents shown beside it. */
  datatype ServiceView = ServiceView(id: Id, service: Service, incidents: seq<(Id, Incident)>)

  /** The open incidents of service `sid`, oldest first. */
  function OpenIncidentsOf(db: Database, sid: Id): (r: seq<(Id, Incident)>)
    requires db.Valid()
    ensures forall e :: e in r ==>
      e.0 in db.incidents && db.incidents[e.0] == e.1 && e.1.service == sid && e.1.status == Open
    ensures forall i ::
      i in db.incidents && db.incidents[i].service == sid && db.incidents[i].status == Open ==>
      (i, db.incidents[i]) in r
    ensures r == [] <==> !HasOpenIncident(db.incidents, sid)
    ensures forall i, j :: 0 <= i < j < |r| ==> r[i].0 != r[j].0
  {
    var r := Select(db.incidents, (inc: Incident) => inc.service == sid && inc.status == Open, db.nextId);
    assert r != [] ==> r[0] in r;
    r
  }

  /** The services of organisation `orgId`, oldest first, each with its open incidents. */
  function ServicesWithIncidents(db: Database, orgId: Id): (views: seq<ServiceView>)
    requires db.Valid()
    ensures forall v :: v in views ==>
      v.id in db.services && db.services[v.id] == v.service && v.service.org == orgId
      && v.incidents == OpenIncidentsOf(db, v.id)
    ensures forall sid :: sid in db.services && db.services[sid].org == orgId ==>
      ServiceView(sid, db.services[sid], OpenIncidentsOf(db, sid)) in views
    ensures forall i, j :: 0 <= i < j < |views| ==> views[i].id < views[j].id
  {
    var owned := Select(db.services, (s: Service) => s.org == orgId, db.nextId);
    ViewsOfOwned(db, orgId, owned);
    ViewsOf(db, owned)
  }

  /** The views of the services listed in `entries`, in the same order. */
  function ViewsOf(db: Database, entries: seq<(Id, Service)>): (r: seq<ServiceView>)
    requires db.Valid()
    ensures |r| == |entries|
    ensures forall k :: 0 <= k < |r| ==>
      r[k] == ServiceView(entries[k].0, entries[k].1, OpenIncidentsOf(db, entries[k].0))
  {
    if entries == [] then []
    else [ServiceView(entries[0].0, entries[0].1, OpenIncidentsOf(db, entries[0].0))] + ViewsOf(db, entries[1..])
  }

  /** Viewing the services of `orgId`, listed in increasing identifier order, gives one view per such
      service, in the same order. */
  lemma ViewsOfOwned(db: Database, orgId: Id, owned: seq<(Id, Service)>)
    requires db.Valid()
    requires forall e :: e in owned ==> e.0 in db.services && db.services[e.0] == e.1 && e.1.org == orgId
    requires forall sid :: sid in db.services && db.services[sid].org == orgId ==> (sid, db.services[sid]) in owned
    requires forall i, j :: 0 <= i < j < |owned| ==> owned[i].0 < owned[j].0
    ensures var views := ViewsOf(db, owned);
      && (forall v :: v in views ==>
            v.id in db.services && db.services[v.id] == v.service && v.service.org == orgId
            && v.incidents == OpenIncidentsOf(db, v.id))
      && (forall sid :: sid in db.services && db.services[sid].org == orgId ==>
            ServiceView(sid, db.services[sid], OpenIncidentsOf(db, sid)) in views)
      && (forall i, j :: 0 <= i < j < |views| ==> views[i].id < views[j].id)
  {
    var views := ViewsOf(db, owned);
    forall v | v in views
      ensures v.id in db.services && db.services[v.id] == v.service && v.service.org == orgId
              && v.incidents == OpenIncidentsOf(db, v.id)
    {
      var k := ViewOfListed(db, owned, v);
      assert owned[k] in owned;
    }
    forall sid | sid in db.services && db.services[sid].org == orgId
      ensures ServiceView(sid, db.services[sid], OpenIncidentsOf(db, sid)) in views
    {
      var k :| 0 <= k < |owned| && owned[k] == (sid, db.services[sid]);
      ViewListed(db, owned, k);
    }
  }

  /** Every view in the list is the view of the service at its own position. */
  lemma ViewOfListed(db: Database, entries: seq<(Id, Service)>, v: ServiceView) returns (k: nat)
    requires db.Valid()
    requires v in ViewsOf(db, entries)
    ensures k < |entries| && v == ServiceView(entries[k].0, entries[k].1, OpenIncidentsOf(db, entries[k].0))
  {
    var views := ViewsOf(db, entries);
    k :| 0 <= k < |views| && views[k] == v;
  }

  /** The service at position `k` of the input has its view in the list. */
  lemma ViewListed(db: Database, entries: seq<(Id, Service)>, k: nat)
    requires db.Valid()
    requires k < |entries|
    ensures ServiceView(entries[k].0, entries[k].1, OpenIncidentsOf(db, entries[k].0)) in ViewsOf(db, entries)
  {
    assert ViewsOf(db, entries)[k] == ServiceView(entries[k].0, entries[k].1, OpenIncidentsOf(db, entries[k].0));
  }

  /** A snapshot never shows a resolved incident, nor an incident beside a service it does not belong to. */
  lemma SnapshotShowsOnlyOpenIncidents(db: Database, orgId: Id, v: ServiceView, e: (Id, Incident))
    requires db.Valid()
    requires v in ServicesWithIncidents(db, orgId) && e in v.incidents
    ensures e.1.status == Open && e.1.service == v.id && e.0 in db.incidents
  {
  }
}

=== FILE: store.dfy ===
/**
 * The store the handlers work on: five collections keyed by identifier and
 * the counter that hands out identifiers. Each mutating handler is a method
 * that checks, then updates the collections in the order the handler does,
 * and is proved to have exactly the effect and answer of the corresponding
 * rule function. The status rule is kept by every method.
 */
module StatusStore {
  import opened Records
  import ServiceRules
  import IncidentRules
  import CollabRules
  import OrgRules

  class Store {
    var orgs: map<Id, Organization>
    var services: map<Id, Service>
    var incidents: map<Id, Incident>
    var requests: map<Id, CollabRequest>
    var nextId: Id

    /** The current content, as a value. */
    function Db(): Database
      reads this
    {
      Database(orgs, services, incidents, requests, nextId)
    }

    ghost predicate Valid()
      reads this
    {
      Db().Valid() && NoOpenIncidentWhileOperational(Db())
    }

    constructor ()
      ensures Db() == EmptyDatabase
      ensures Valid()
    {
      orgs, services, incidents, requests := map[], map[], map[], map[];
      nextId := 0;
    }

    // ---- Organisations ----

    method CreateOrganization(caller: Actor, name: string) returns (r: Result<Id>)
      requires Valid()
      modifies this
      ensures Valid()
      ensures Step(Db(), r) == OrgRules.CreateOrganization(old(Db()), caller, name)
    {
      if caller.role != Admin { return Err(Forbidden); }
      if name == "" { return Err(MissingField); }
      if OrgRules.NameUsed(orgs, name) { return Err(DuplicateName); }
      var id := nextId;
      orgs := orgs[id := Organization(name, caller.id, [])];
      nextId := nextId + 1;
      r := Ok(id);
    }

    method DeleteOrganization(caller: Actor, orgId: Id) returns (r: Result<()>)
      requires Valid()
      modifies this
      ensures Valid()
      ensures Step(Db(), r) == OrgRules.DeleteOrganization(old(Db()), caller, orgId)
    {
      if orgId !in orgs { return Err(NotFound); }
      if caller.role != Admin || orgs[orgId].admin != caller.id { return Err(Forbidden); }
      orgs := orgs - {orgId};
      r := Ok(());
    }

    // ---- Services ----

    method CreateService(caller: Actor, name: string, status: string, orgId: Id) returns (r: Result<Id>)
      requires Valid()
      modifies this
      ensures Valid()
      ensures Step(Db(), r) == ServiceRules.CreateService(old(Db()), caller, name, status, orgId)
    {
      ServiceRules.CreateServiceKeepsStatusRule(Db(), caller, name, status, orgId);
      if caller.role != Admin { return Err(Forbidden); }
      var st := ParseServiceStatus(status);
      if st.None? { return Err(InvalidStatus); }
      if orgId !in orgs { return Err(NotFound); }
      if orgs[orgId].admin != caller.id { return Err(Forbidden); }
      if ServiceRules.NameTakenInOrg(services, orgId, name) { return Err(DuplicateName); }
      if name == "" { return Err(ServerError); }
      var id := nextId;
      services := services[id := Service(name, st.value, orgId)];
      nextId := nextId + 1;
      r := Ok(id);
    }

    method UpdateServiceStatus(caller: Actor, sid: Id, status: string) returns (r: Result<Service>)
      requires Valid()
      modifies this
      ensures Valid()
      ensures Step(Db(), r) == ServiceRules.UpdateServiceStatus(old(Db()), caller, sid, status)
    {
      ServiceRules.UpdateServiceStatusKeepsStatusRule(Db(), caller, sid, status);
      var st := ParseServiceStatus(status);
      if st.None? { return Err(InvalidStatus); }
      if sid !in services { return Err(NotFound); }
      var service := services[sid];
      if service.org !in orgs { return Err(ServerError); }
      if !MayEdit(orgs[service.org], caller.id) { return Err(Forbidden); }
      ChangeStatus(sid, st.value);
      r := Ok(service.(status := st.value));
    }

    /** The writes of a permitted status change: the status first, then the incident side effect. */
    method ChangeStatus(sid: Id, st: ServiceStatus)
      requires Db().Valid() && sid in services
      modifies this
      ensures Db() == ServiceRules.ChangeStatus(old(Db()), sid, st)
    {
      var prevStatus := services[sid].status;
      services := services[sid := services[sid].(status := st)];
      if st == Operational {
        incidents := ServiceRules.ResolveOpenOf(incidents, sid);
      } else if prevStatus == Operational && !HasOpenIncident(incidents, sid) {
        incidents := incidents[nextId := ServiceRules.AutoIncident(sid, StatusName(st))];
        nextId := nextId + 1;
      }
    }

    method DeleteService(caller: Actor, sid: Id) returns (r: Result<()>)
      requires Valid()
      modifies this
      ensures Valid()
      ensures Step(Db(), r) == ServiceRules.DeleteService(old(Db()), caller, sid)
    {
      ServiceRules.DeleteServiceKeepsStatusRule(Db(), caller, sid);
      if sid !in services { return Err(NotFound); }
      var org := services[sid].org;
      if org !in orgs || orgs[org].admin != caller.id { return Err(Forbidden); }
      services := services - {sid};
      r := Ok(());
    }

    // ---- Incidents ----

    method CreateIncident(caller: Actor, sid: Id, name: string, issueMessage: string) returns (r: Result<Id>)
      requires Valid()
      modifies this
      ensures Valid()
      ensures Step(Db(), r) == IncidentRules.CreateIncident(old(Db()), caller, sid, name, issueMessage)
    {
      IncidentRules.CreateIncidentKeepsStatusRule(Db(), caller, sid, name, issueMessage);
      if sid !in services { return Err(NotFound); }
      var service := services[sid];
      if service.org !in orgs { return Err(ServerError); }
      if !MayEdit(orgs[service.org], caller.id) { return Err(Forbidden); }
      if name == "" || issueMessage == "" { return Err(ServerError); }
      var id := nextId;
      incidents := incidents[id := Incident(sid, name, Open, issueMessage)];
      nextId := nextId + 1;
      services := services[sid := service.(status := DegradedPerformance)];
      r := Ok(id);
    }

    /** The status rule after an incident of `sid` is resolved or removed: with no open incident left the
        service becomes Operational. */
    method RecomputeStatus(sid: Id)
      requires sid in services
      modifies this
      ensures services == IncidentRules.Recompute(old(services), incidents, sid)
      ensures orgs == old(orgs) && incidents == old(incidents) && requests == old(requests) && nextId == old(nextId)
    {
      if !HasOpenIncident(incidents, sid) {
        services := services[sid := services[sid].(status := Operational)];
      }
    }

    method UpdateIncidentStatus(caller: Actor, iid: Id, status: string) returns (r: Result<Incident>)
      requires Valid()
      modifies this
      ensures Valid()
      ensures Step(Db(), r) == IncidentRules.UpdateIncidentStatus(old(Db()), caller, iid, status)
    {
      IncidentRules.UpdateIncidentStatusKeepsStatusRule(Db(), caller, iid, status);
      if status != "resolved" { return Err(InvalidStatus); }
      if iid !in incidents { return Err(NotFound); }
      var incident := incidents[iid];
      if incident.service !in services || services[incident.service].org !in orgs { return Err(ServerError); }
      if !MayEdit(orgs[services[incident.service].org], caller.id) { return Err(Forbidden); }
      incident := incident.(status := Resolved);
      incidents := incidents[iid := incident];
      RecomputeStatus(incident.service);
      r := Ok(incident);
    }

    method UpdateIncidentMessage(caller: Actor, iid: Id, message: Option<string>) returns (r: Result<Incident>)
      requires Valid()
      modifies this
      ensures Valid()
      ensures Step(Db(), r) == IncidentRules.UpdateIncidentMessage(old(Db()), caller, iid, message)
    {
      IncidentRules.UpdateIncidentMessageKeepsStatusRule(Db(), caller, iid, message);
      if message.None? || message.value == "" { return Err(MissingField); }
      if iid !in incidents { return Err(NotFound); }
      var incident := incidents[iid];
      if incident.service !in services || services[incident.service].org !in orgs { return Err(ServerError); }
      if !MayEdit(orgs[services[incident.service].org], caller.id) { return Err(Forbidden); }
      incident := incident.(issueMessage := message.value);
      incidents := incidents[iid := incident];
      r := Ok(incident);
    }

    method DeleteIncident(caller: Actor, iid: Id) returns (r: Result<()>)
      requires Valid()
      modifies this
      ensures Valid()
      ensures Step(Db(), r) == IncidentRules.DeleteIncident(old(Db()), caller, iid)
    {
      IncidentRules.DeleteIncidentKeepsStatusRule(Db(), caller, iid);
      if iid !in incidents { return Err(NotFound); }
      var sid := incidents[iid].service;
      if sid !in services || services[sid].org !in orgs { return Err(ServerError); }
      if orgs[services[sid].org].admin != caller.id { return Err(Forbidden); }
      incidents := incidents - {iid};
      RecomputeStatus(sid);
      r := Ok(());
    }

    // ---- Collaboration ----

    method RequestCollaboration(caller: Actor, orgId: Id) returns (r: Result<Id>)
      requires Valid()
      modifies this
      ensures Valid()
      ensures Step(Db(), r) == CollabRules.RequestCollaboration(old(Db()), caller, orgId)
    {
      if orgId !in orgs { return Err(NotFound); }
      var org := orgs[orgId];
      if org.admin == caller.id { return Err(AlreadyAdmin); }
      if caller.id in org.collaborators { return Err(AlreadyCollaborator); }
      if CollabRules.HasPendingRequest(requests, orgId, caller.id) { return Err(RequestPending); }
      var id := nextId;
      requests := requests[id := CollabRequest(orgId, caller.id, Pending)];
      nextId := nextId + 1;
      r := Ok(id);
    }

    method RespondToRequest(caller: Actor, rid: Id, status: string) returns (r: Result<CollabRequest>)
      requires Valid()
      modifies this
      ensures Valid()
      ensures Step(Db(), r) == CollabRules.RespondToRequest(old(Db()), caller, rid, status)
    {
      if rid !in requests { return Err(NotFound); }
      var request := requests[rid];
      if request.org !in orgs { return Err(ServerError); }
      var org := orgs[request.org];
      if org.admin != caller.id { return Err(Forbidden); }
      var decision := ParseDecision(status);
      if decision.None? { return Err(InvalidStatus); }
      request := request.(status := decision.value);
      requests := requests[rid := request];
      if decision.value == Accepted && request.user !in org.collaborators {
        orgs := orgs[request.org := org.(collaborators := org.collaborators + [request.user])];
      }
      r := Ok(request);
    }

    method SuspendCollaborator(caller: Actor, orgId: Id, user: Id, rid: Id) returns (r: Result<()>)
      requires Valid()
      modifies this
      ensures Valid()
      ensures Step(Db(), r) == CollabRules.SuspendCollaborator(old(Db()), caller, orgId, user, rid)
    {
      if orgId !in orgs { return Err(NotFound); }
      var org := orgs[orgId];
      if org.admin != caller.id && caller.role != Admin { return Err(Forbidden); }
      if rid !in requests { return Err(ServerError); }
      requests := requests[rid := requests[rid].(status := Pending)];
      orgs := orgs[orgId := org.(collaborators := CollabRules.Without(org.collaborators, user))];
      r := Ok(());
    }
  }
}
